=== FILE: README.md ===
# LLM_NPC persona simulation in Dafny

This project models the core of LLM_NPC, a simulated forum whose members are
language-model personas. Each persona (an `AIAgent`) has interest topics and a
daily sleep window. From the window it draws a set of active hours. It keeps a
bounded working memory on top of an append-only history. While active it
posts and comments; while asleep it turns a model reply into "inspiration"
memories. A scheduler wakes once per minute. It notices hour changes, resets
every persona's day at midnight and hands one active persona one task. Around
this sit four in-memory stores:

- the community (posts, comments and a post → comment-id index);
- the interaction ledger (directed pair counters);
- the decision policy's answer cache;
- the post analyzer's per-post cache.

An activity log keeps the newest monitor entries and records sleep/wake edges.

Everything is written as pure functions over immutable datatypes. Whatever the
source reads from the outside world is a parameter:

- the clock hour;
- each `random.random()` draw, as a `real`;
- each `random.choice`/`randint`/`sample` pick, as a `nat` index;
- `uuid4` ids, as a fresh string;
- timestamps, as an `int` ordered like the ISO strings they stand for;
- each language-model reply, as `Option<string>`, where `None` means no
  choice came back or the call raised.

Modules follow the source files:

| module | models |
|---|---|
| `Strings` (strings.dfy) | the Python `str` and slice operations the code uses: `s[a:b]`, `in`, `split`, `strip`, `lower`, `startswith`, `str(int)` |
| `Utils` (utils.dfy) | `summarize_text`, `count_tokens_estimate` |
| `Schedule` (schedule.dfy) | the sleep window and active-hour generation of `ai_agent.py` |
| `Sorting` (sorting.dfy) | Python's stable `sort`/`sorted` on an integer key |
| `Communities` (community.dfy) | `community.py` |
| `Interactions` (interactions.dfy) | `interaction_tracker.py` |
| `Agents` (agents.dfy) | the rest of `ai_agent.py` |
| `Behavior` (behavior.dfy) | `ai_behavior.py` |
| `Analyzer` (analyzer.dfy) | `post_analyzer.py` |
| `Monitor` (monitor.dfy) | `ActivityLog` and the sleep/wake hook of `monitor.py` |
| `Scheduler` (scheduler.dfy) | one pass of the `scheduler.py` loop, and `run_forced_task` |

`Wrappers` holds the `Option` type.

Consequences of the code that the model proves:

- At a window's end hour the half-open sleep test is false. So the wake-hour
  sleep-learning of `_check_sleep_wake_transitions` never changes anything
  (`Agents.NoLearningAtWake`, `Scheduler.WakeAll`).
- The persona a pass picks is active, and an active persona is never asleep.
  So the scheduler's third band (draw ≥ 0.7) never runs sleep-learning and
  changes nothing (`Scheduler.SleepBand`, `Scheduler.ScheduleTasks`).
- Post-analysis scores never go below 3. The relevance line subtracts at most
  2 from a base of 5, so the lower clamp at 0 never acts
  (`Analyzer.InterestAtLeastThree`).
- `summarize_text` with a negative length is not idempotent
  (`Utils.SummarizeNegativeNotIdempotent`). With a length ≥ 0 it is.

Where `main.py` and `scheduler.py` disagree, the model follows
`scheduler.py`. `main.py` builds the scheduler with five arguments, but the
constructor at scheduler.py:10 takes four. The model's `Scheduler.World` holds the
personas, the community and the interaction tracker that constructor keeps.
It drops the persistence object, and the `running` flag and thread handle
(scheduler.py:15-16) that only control the loop. It adds the dictionary order
of the personas (`agentOrder`) and the last hour seen (`lastHour`), which is a
local of `_run` (scheduler.py:48).

## Model

| member | source | states |
|---|---|---|
| Utils.SummarizeText | utils.py:13-17 | text no longer than the bound is returned unchanged; otherwise the first `max_length` characters followed by "..."; for a negative bound, the text minus its last `-max_length` characters (nothing when that is all of it) followed by "..." |
| Utils.SummarizeIdempotent | utils.py:13-17 | for a bound ≥ 0, summarizing a summary changes nothing |
| Utils.SummarizeNegativeNotIdempotent | utils.py:13-17 | for a negative bound a second summary differs from the first (a concrete string) |
| Utils.CountTokensEstimate | utils.py:47-57 | the estimate is ⌊(6·c + o)/4⌋, where c counts the characters in U+4E00..U+9FFF and o counts the rest |
| Utils.TokensBounded | utils.py:47-57 | the estimate lies between len/4 and 6·len/4 |
| Utils.CjkCountAppend | utils.py:54 | the CJK count of a concatenation is the sum of the counts |
| Utils.TokensMonotone | utils.py:47-57 | appending text never lowers the estimate |
| Schedule.SleepHours | ai_agent.py:45-49 | the sleep list is `[start, end)` for a plain window; for a window that wraps midnight it is `[start, 24)` followed by `[0, end)` |
| Schedule.InSleepWindowIffSleepHour | ai_agent.py:45-49 | for hours 0..23, the `is_asleep` window test holds exactly for the hours in the sleep list |
| Schedule.SleepEndNotInWindow | ai_agent.py:81-84 | the window's end hour is never a sleeping hour, for plain and wrapping windows alike |
| Schedule.AvailableHours | ai_agent.py:42-51 | strictly increasing, and a member exactly when it is in 0..23 and outside the sleep window |
| Schedule.RandInt | ai_agent.py:54 | the drawn count lies in `[min, max]` |
| Schedule.Sample | ai_agent.py:57 | `random.sample` gives exactly k distinct members of the pool |
| Schedule.SortHours | ai_agent.py:57 | `sorted` of distinct hours is strictly increasing, with the same members and the same length |
| Schedule.GenerateActiveHours | ai_agent.py:39-59 | active hours are strictly increasing, lie in 0..23, avoid the sleep window and the sleep list, and number exactly `min(n, len(available))` for the drawn n in `[min, max]` |
| Schedule.DefaultWindowExcluded | ai_agent.py:39-59 | with the default window 1–7, hours 1..6 are never active |
| Sorting.SortDesc | community.py:59 | a descending sort is ordered and a permutation of its input |
| Sorting.SortAsc | community.py:106 | an ascending sort is ordered and a permutation of its input |
| Sorting.SortDescStable | interaction_tracker.py:83-87 | the descending sort is stable: entries with equal keys keep their input order |
| Sorting.SortAscStable | community.py:106 | the ascending sort is stable |
| Sorting.TopOfSorted | interaction_tracker.py:90 | the first n entries of a descending sort are a sub-multiset of the input, and no entry left out has a larger key than one kept |
| Communities.AddPost | community.py:20-45 | the fresh id is stored with likes 0 and an empty comment list; every other post, comment list and comment is unchanged; validity is kept |
| Communities.GetPost | community.py:47-49 | the stored post, or None exactly for an unknown id |
| Communities.GetPostAfterAdd | community.py:20-49 | a post just added is found under its id |
| Communities.GetAllPosts | community.py:51-63 | newest first; the result is a sub-multiset of the candidates (no post twice); the author filter applies only for a truthy author; a limit of None or 0 returns every candidate; a positive limit returns min(limit, count) entries and a negative one drops entries from the end as a Python slice does; no post left out is newer than one returned |
| Communities.NoPostsListed | community.py:51-63 | the unfiltered listing is empty exactly when nothing has been posted |
| Communities.NoRecentPosts | community.py:51-63 | the ten newest posts are none exactly when nothing has been posted |
| Communities.AllPostsListed | community.py:51-63 | every stored post appears in the unfiltered, unlimited listing |
| Communities.AllPostsEmptyIff | community.py:51-63 | the listing is empty exactly when the store has no post |
| Communities.AddComment | community.py:65-95 | an unknown post gives None and no change; otherwise the comment is stored with likes 0 and its id is appended to that post's list only; posts are unchanged |
| Communities.GetPostComments | community.py:97-108 | [] for an unknown post; otherwise exactly the indexed comments present in the map, oldest first |
| Communities.CommentListedAfterAdd | community.py:65-108 | a comment just added is listed under its post |
| Communities.LikePost | community.py:110-116 | a known post's likes rise by exactly 1 and the new count is returned; an unknown id gives None and no change |
| Communities.LikeComment | community.py:118-124 | the same for comments |
| Communities.LikePostTwice | community.py:110-116 | two likes add two |
| Interactions.RecordInteraction | interaction_tracker.py:20-42 | the initiator's tallies gain one for the target (a new target goes last); the (initiator, target) time becomes `now`; every other time is unchanged; validity (distinct targets, counts ≥ 1) is kept |
| Interactions.BumpCount | interaction_tracker.py:33-37 | the bumped pair's count rises by exactly 1 and every other count is unchanged |
| Interactions.BumpTotal | interaction_tracker.py:33-37 | the initiator's total rises by exactly 1 |
| Interactions.RecordCounts | interaction_tracker.py:20-37 | after recording (a, b), the count of (x, y) rises by one for (a, b) only, which leaves (b, a) unchanged |
| Interactions.GetInteractionCount | interaction_tracker.py:65-69 | 0 for an unknown initiator; at least 1 exactly for recorded pairs |
| Interactions.GetLastInteractionTime | interaction_tracker.py:71-75 | the stored time, or None exactly when the pair was never recorded |
| Interactions.RecordTime | interaction_tracker.py:40-75 | after recording, the pair's last time is `now` |
| Interactions.GetMostInteracted | interaction_tracker.py:77-90 | [] for an unknown agent; counts non-increasing; min(limit, targets) entries; all are the agent's tallies; no tally left out has a higher count |
| Interactions.MostInteractedTiesInOrder | interaction_tracker.py:83-90 | tied entries appear in the order the targets were first recorded |
| Interactions.GetInteractionSummary | interaction_tracker.py:92-104 | zeros and no top list for an unknown agent; otherwise the sum of counts, the number of targets and the top three |
| Interactions.RecordSummary | interaction_tracker.py:20-104 | recording raises the total by one, and the number of targets by one exactly when the target is new, for an initiator seen before or not |
| Interactions.TotalAtLeastTargets | interaction_tracker.py:33-98 | the total is at least the number of targets |
| Agents.NewAgent | ai_agent.py:7-37 | both memory lists start as the given memories; the sleep window is the night-owl or default one; the flags and lists start empty; the active hours number between min and max (or every available hour when fewer are free); the persona is consistent |
| Agents.ActiveNotAsleep | ai_agent.py:61-84 | for a consistent persona an active hour is never a sleeping hour, forced or not |
| Agents.SetForceActive | ai_agent.py:86-89 | only the flag changes, to the given state, and that state is returned; forced means active and awake at every hour, unforced means active exactly in the active hours |
| Agents.ForceActiveUndo | ai_agent.py:86-89 | setting the flag back restores the persona |
| Agents.ResetDailySchedule | ai_agent.py:275-277 | only the active hours change, to the day generated from the draw: at least min of them (or every free hour), at most max, all outside the sleep window; consistency is kept |
| Agents.GetStatus | ai_agent.py:279-290 | forced, sleeping, online or offline, each exactly when the source's branch applies |
| Agents.ListReprLen | ai_agent.py:272 | the size measure `len(str(memories))`: 2 for an empty list, and strictly larger than the list without its oldest entry |
| Agents.Evict | ai_agent.py:272-273 | the eviction loop keeps a suffix whose size is within 10000, keeps a list that already fits, and stops at the first fitting suffix |
| Agents.EvictLongest | ai_agent.py:272-273 | no fitting suffix is longer than the one kept |
| Agents.EvictAgain | ai_agent.py:266-273 | evicting before further entries arrive changes nothing: the result equals one eviction at the end |
| Agents.AddMemory | ai_agent.py:266-273 | the history gains the entry exactly once; working memory becomes the eviction of itself plus the entry: a suffix of itself plus the entry, within the limit, unchanged when everything fits; nothing else changes; working memory stays a suffix of the history |
| Agents.OversizedMemoryEvicted | ai_agent.py:266-273 | an entry too large on its own leaves the working memory empty but still enters the history |
| Agents.AddMemories | ai_agent.py:258-260 | an empty batch changes nothing; adding entries one by one equals appending them all and evicting once; the history gains them all |
| Agents.AddMemoriesValid | ai_agent.py:258-260 | a batch of additions keeps the persona consistent and the working memory within the limit |
| Agents.PostMemory | ai_agent.py:143 | the memory carries the text after the first "关于" of the prompt, or the whole prompt when it has none |
| Agents.DefaultPromptMemory | ai_agent.py:97-143 | with the default prompt, the memory repeats the rest of that prompt |
| Agents.CreatePost | ai_agent.py:91-147 | None and no change when inactive without a prompt or without a reply; otherwise the fresh post holds the reply, the persona lists it and remembers it in its history and, evicted to the limit, in its working memory, and only those fields change |
| Agents.CommentOnPost | ai_agent.py:149-208 | None and no change when inactive without a prompt, for an unknown post, or without a reply; otherwise the comment is stored under the post, listed by the persona and remembered with the post's author and first 30 characters, in the history and, evicted to the limit, in the working memory |
| Agents.Insights | ai_agent.py:256-259 | never more memories than lines, each starting with the tag and longer than it |
| Agents.LearnFrom | ai_agent.py:254-260 | the text becomes one more inspiration; the history gains its insights in order; the working memory becomes the eviction of itself plus them, unchanged when there are none; nothing else changes |
| Agents.InsightsExactly | ai_agent.py:257-260 | the memories are exactly "[灵感] " plus the stripped text of each line that is not blank, not a heading and longer than ten characters |
| Agents.InsightOfLine | ai_agent.py:258-260 | a heading, a blank line or a line of at most ten characters gives nothing; any other line gives its stripped text, tagged |
| Agents.InsightsAppend | ai_agent.py:256-259 | lines are judged one at a time, in order |
| Agents.ProcessSleepLearning | ai_agent.py:210-264 | a result exactly when asleep with a reply; then the reply is kept as one inspiration and the tagged kept lines are remembered in order, the working memory becoming the eviction of itself plus those lines (unchanged when none is kept); otherwise no change |
| Agents.NoLearningAtWake | ai_agent.py:81-213 | at the window's end hour sleep-learning returns None and changes nothing |
| Behavior.ParseYesIfEarly | ai_behavior.py:110-114 | a "是" among the first ten characters of the stripped, lower-cased reply means yes |
| Behavior.ParseYesOnlyIfEarly | ai_behavior.py:110-116 | a yes always comes from such a "是" |
| Behavior.LlmDecision | ai_behavior.py:99-121 | with a reply, the parsed answer; without one, `draw < 0.5` |
| Behavior.PostKeyDistinguishesCounts | ai_behavior.py:24 | two memory sizes give two different cache keys |
| Behavior.ShouldCreatePost | ai_behavior.py:11-33 | force gives yes; more than ten own posts and a draw > 0.3 give no; otherwise a cache hit is returned unchanged and a miss is asked and stored under its key; the cache gains at most that key |
| Behavior.PostDecisionSticks | ai_behavior.py:24-33 | a second decision with the same memory size repeats the first, whatever the new reply |
| Behavior.ShouldCommentOnPost | ai_behavior.py:35-60 | force gives yes; an own post gives `draw < 0.1` without touching the cache; an earlier comment gives no without touching the cache; otherwise cache hit or ask-and-store |
| Behavior.NoSecondComment | ai_behavior.py:44-48 | right after commenting on another's post, the persona is told not to comment on it again |
| Behavior.ClearCache | ai_behavior.py:141-143 | the cache is empty |
| Behavior.ClearedCacheAsks | ai_behavior.py:24-143 | after clearing, the next decision asks the model again |
| Behavior.MentionsTopic | ai_behavior.py:131 | true exactly when some topic occurs in the memory, both lower-cased |
| Behavior.RelevantMemories | ai_behavior.py:129-132 | exactly the memories that mention a topic |
| Behavior.SelectPostTopic | ai_behavior.py:123-139 | the topic always starts "关于<topic>的帖子，"; it carries an inspiration exactly when a recent memory is relevant and the draw is below 0.7, and the inspiration is such a memory; in every other case it is the plain topic line |
| Behavior.TopicLinesDiffer | ai_behavior.py:134-139 | the plain and the inspired topic lines share their opening and never coincide |
| Analyzer.AnalyzePost | post_analyzer.py:9-68 | a cached record is returned with the cache unchanged; otherwise the new record holds the post id, the time, the reply or the failure text, and the 100-character summary, and is cached |
| Analyzer.AnalyzeTwice | post_analyzer.py:14-15 | a second analysis returns the first record, failure records included, whatever the new reply |
| Analyzer.RelevanceDelta | post_analyzer.py:97-104 | +3, +1, −2 or 0, and 0 without a relevance marker |
| Analyzer.MarkedLineText | post_analyzer.py:98 | the text read is the line after the first relevance marker, when no marker comes earlier and none is on that line |
| Analyzer.RelevanceTable | post_analyzer.py:97-104 | on such a line, 高 gives +3; otherwise 中 gives +1; otherwise 低 gives −2; otherwise 0 |
| Analyzer.TopicHits | post_analyzer.py:107-109 | at most one per topic, and positive exactly when some topic occurs in the content |
| Analyzer.GetInterestLevel | post_analyzer.py:88-112 | in [0, 10]; 5 plus the relevance adjustment plus the topic hits, clamped |
| Analyzer.InterestAtLeastThree | post_analyzer.py:93-112 | the score is at least 3, and 3 only with no topic hit |
| Analyzer.FailedAnalysisScore | post_analyzer.py:59-97 | a failed first analysis scores topic hits only |
| Analyzer.MoreTopicsNoLowerInterest | post_analyzer.py:107-112 | one more topic never lowers the score |
| Analyzer.TopicHitsAppend | post_analyzer.py:107-109 | topic hits add up over concatenated topic lists |
| Analyzer.ShouldAgentReply | post_analyzer.py:70-86 | yes exactly when the analysis says "是" after the reply marker, or a topic occurs, or the draw is below 0.5 |
| Analyzer.DeclinedPostsScoreLow | post_analyzer.py:70-112 | a declined post has no topic hit and scores at most 8 |
| Monitor.AddEntry | monitor.py:49-55 | the log becomes the newest `max_entries` entries of the old log plus the new entry, in order |
| Monitor.NewestKeepsLast | monitor.py:49-55 | with room for one entry, the new entry is kept last |
| Monitor.GetRecent | monitor.py:97-99 | min(count, size) newest entries for count ≥ 1; the whole log for count 0; always a suffix |
| Monitor.Matching | monitor.py:103-108 | exactly the entries whose field matches, never more than the log holds |
| Monitor.MatchingAppend | monitor.py:103-108 | filtering a log split in two is filtering each part, in order, so matches keep log order |
| Monitor.GetByAgent | monitor.py:101-104 | only that persona's entries, newest last, with the same truncation |
| Monitor.GetByAction | monitor.py:106-109 | only that action's entries, newest last, with the same truncation |
| Monitor.PrevHour | monitor.py:401 | h − 1, or 23 at hour 0 |
| Monitor.SleepWakeEdge | monitor.py:398-408 | falls asleep exactly when not asleep an hour ago and asleep now; wakes exactly in the reverse case |
| Monitor.EdgesAtWindowBounds | monitor.py:398-408 | for an unforced persona with a non-empty window, sleep is logged exactly at the start and waking exactly at the end |
| Monitor.ForcedNoEdges | monitor.py:398-408 | a forced persona never shows an edge |
| Monitor.EdgeEntry | monitor.py:144-408 | an entry exactly on an edge: "SLEEP" exactly when falling asleep, for the persona, at the current time |
| Scheduler.NewWorld | scheduler.py:10-48 | the loop starts with no hour seen (-1) |
| Scheduler.ResetAll | scheduler.py:69-78 | only active hours change; personas outside the order keep theirs; consistency is kept |
| Scheduler.ResetAllAt | scheduler.py:74-76 | the i-th persona receives the day generated from the i-th draw |
| Scheduler.WakeAll | scheduler.py:80-97 | the wake-hour sleep-learning leaves every persona unchanged |
| Scheduler.Transitions | scheduler.py:54-61 | the same hour changes nothing; a new hour is remembered; only a new hour 0 resets |
| Scheduler.FirstPassResets | scheduler.py:48-58 | a first pass at midnight resets every persona's day |
| Scheduler.ActiveAgents | scheduler.py:101-107 | exactly the personas active at the hour |
| Scheduler.ScheduleCreatePost | scheduler.py:127-141 | the chosen persona's `create_post` with no prompt: its persona and community replace the old ones, its result is reported, the ledger is untouched, consistency kept |
| Scheduler.ScheduleCommentPost | scheduler.py:143-174 | nothing without posts; with posts, a `comment_on_post` with no prompt on one of the ten newest posts, whose persona, community and result the world and the task take on; an interaction with its author is recorded exactly when a truthy comment id comes back |
| Scheduler.ScheduleTasks | scheduler.py:99-125 | idle exactly without an active persona; the chosen persona is active; a post exactly below 0.3 or without posts, whose result, persona and community are `create_post`'s; with posts, a comment from 0.3 up to 0.7, whose result, persona and community are `comment_on_post`'s; the third band changes nothing; the ledger changes only for a returned comment |
| Scheduler.Dispatch | scheduler.py:113-125 | for one active persona: a post exactly below 0.3 or with no post stored, taking `create_post`'s result, persona and community; from 0.3 up to 0.7 a comment taking `comment_on_post`'s; nothing from 0.7 on |
| Scheduler.SleepBand | scheduler.py:123-125 | a sleeping persona runs `process_sleep_learning`, whose persona and result the world and task take on; any other persona changes nothing |
| Scheduler.CommentStep | scheduler.py:157-174 | a comment task on the given post whose persona and community come from `comment_on_post`, recording an interaction with the author exactly for a truthy result |
| Scheduler.Tick | scheduler.py:46-67 | the hour is remembered and consistency is kept; a pass within the same hour only schedules; a new hour 0 resets every persona's day and then schedules; any other new hour only records the hour and then schedules |
| Scheduler.RunForcedTask | scheduler.py:189-216 | None and no change for an unknown persona, an unknown task or a comment without a post id; for a known persona, a forced post, comment or sleep-learning is `create_post`, `comment_on_post` or `process_sleep_learning`, whose result is returned and whose persona and community the world takes on; with a prompt and a reply, a forced post or comment succeeds even for an inactive persona; the ledger is never touched |

## Left out

- The language-model client (`llm_interface.py`) and the prompt text sent to it. Each model reply is an `Option<string>` parameter. The web-search flags only shape the request, so they are dropped.
- Persistence and file I/O: the memory system, `save_data`/`load_data`, the interaction log file, and `log_to_file` and the JSON helpers. These are side effects that never feed back into the logic modelled here.
- Threads, the log queue, `time.sleep`, and the start/stop and console loops of the scheduler and monitor. One scheduler pass is a function, and a log entry is added as soon as it is logged.
- `main.py`, the monitor's console commands, `print_color` and `format_timestamp`: these are presentation only.
- A persona's role, system prompt, behaviours, speaking style and background. They only shape prompts.
- The `details` field of log entries and of interactions. It is never read back by the modelled logic.
- The log messages of `log_post`/`log_comment` and the insight variant of `log_wake`. That variant is never called with insights.
- The interaction type argument of `record_interaction`. It only reaches the log file.
- `env_loader.py`. The configuration is a `Config` parameter whose default matches env_loader.py:17-23, and the memory limit is the literal 10000 of ai_agent.py:272.
- Agents.ListReprLen: printable non-ASCII characters count as one character each, as Python prints them. Non-printable non-ASCII characters, which Python prints as longer escapes, also count as one. Only the ASCII control characters, backslash and quotes are escaped.
- Strings.Lower: folds ASCII letters only. Python's `lower()` also folds other scripts.
- Utils.CountTokensEstimate: uses exact integer arithmetic for `int(c*1.5 + o/4)`. The floating-point result agrees with it unless the text is astronomically long.
- Timestamps are integers ordered like the ISO strings the source compares. Equal timestamps keep insertion order, as Python's stable sort does.
- The source reads the clock again inside `create_post`, `comment_on_post` and `process_sleep_learning`. The model passes the scheduler's hour to them.
- The analyzer's `agent` parameter appears only through its interest topics. The rest of it only shapes the prompt.
- Agents.CreatePost: requires a topic when an active persona posts without a prompt. With no topics, `random.choice([])` raises IndexError (ai_agent.py:99); that exception is not modelled.
- Behavior.SelectPostTopic: requires a non-empty topic list. With no topics, `random.choice` raises IndexError (ai_behavior.py:126); that exception is not modelled.
- Scheduler.AgentsValid: requires every persona to have a topic. Otherwise a pass can reach the IndexError above, which ends the scheduler thread (scheduler.py:50-67); the model does not describe a dead scheduler.
- Agents.ValidConfig: requires 0 ≤ min ≤ max active hours. With min > max, `random.randint` raises ValueError (ai_agent.py:54). A negative min is also excluded, though the source succeeds whenever the drawn count is non-negative; a negative count makes `random.sample` raise ValueError (ai_agent.py:57).
- Schedule.GenerateActiveHours: requires 0 ≤ min ≤ max, for the same ValueError cases as Agents.ValidConfig.
- Monitor.AddEntry: requires a non-negative maximum. With a negative maximum, the eviction loop empties the log and then `pop(0)` on the empty list raises IndexError (monitor.py:54-55); that exception is not modelled.

=== FILE: agents.dfy ===
/**
  One persona: its sleep window and the active hours drawn for the day, the
  force-active switch, its bounded working memory next to the unbounded
  history, and the posts, comments and sleep-time inspirations it produced.

  The wall-clock hour, the random draws and the reply of the language model
  (`None` when the call yields no choice) are parameters. The system prompt,
  role, background and speaking style only shape prompts and are not part of
  this model.
 */
module Agents {
  import opened Wrappers
  import opened Strings
  import opened Schedule
  import opened Communities

  /** The configuration values the persona reads. */
  datatype Config = Config(activeHoursMin: int, activeHoursMax: int,
                           defaultSleepStart: int, defaultSleepEnd: int,
                           nightOwlSleepStart: int, nightOwlSleepEnd: int)

  /** The defaults of the configuration loader. */
  const DefaultConfig := Config(3, 8, 1, 7, 2, 9)

  /** `random.randint` needs `min <= max`, and `random.sample` a count that
      is not negative. */
  predicate ValidConfig(cfg: Config)
  {
    0 <= cfg.activeHoursMin <= cfg.activeHoursMax
  }

  /** The size bound `add_memory` enforces on the working memory, in
      characters of the list's printed form. */
  const MemoryLimit := 10000

  datatype Agent = Agent(agentId: string, name: string, topics: seq<string>,
                         sleepStart: int, sleepEnd: int, activeHours: seq<int>,
                         forceActive: bool,
                         memories: seq<string>, allMemories: seq<string>,
                         posts: seq<string>, comments: seq<string>,
                         inspirations: seq<string>)

  /** The working memory is the newest part of the history, and the day's
      active hours are sorted hours of the day outside the sleep window. */
  predicate Valid(a: Agent)
  {
    && IsSuffix(a.memories, a.allMemories)
    && StrictlyIncreasing(a.activeHours)
    && (forall h :: h in a.activeHours ==>
          0 <= h < HoursPerDay && !InSleepWindow(a.sleepStart, a.sleepEnd, h))
  }

  /** The constructor: both memory lists start as the given memories, the
      sleep window follows the night-owl flag, and the day's hours are drawn. */
  function NewAgent(agentId: string, name: string, topics: seq<string>, memories: seq<string>,
                    nightOwl: bool, cfg: Config, draw: ScheduleDraw): (a: Agent)
    requires ValidConfig(cfg)
    ensures a.memories == memories && a.allMemories == memories
    ensures a.sleepStart == (if nightOwl then cfg.nightOwlSleepStart else cfg.defaultSleepStart)
    ensures a.sleepEnd == (if nightOwl then cfg.nightOwlSleepEnd else cfg.defaultSleepEnd)
    ensures !a.forceActive && a.posts == [] && a.comments == [] && a.inspirations == []
    ensures cfg.activeHoursMin <= |a.activeHours|
            || |a.activeHours| == |AvailableHours(a.sleepStart, a.sleepEnd)|
    ensures |a.activeHours| <= cfg.activeHoursMax
    ensures Valid(a)
  {
    var start := if nightOwl then cfg.nightOwlSleepStart else cfg.defaultSleepStart;
    var end := if nightOwl then cfg.nightOwlSleepEnd else cfg.defaultSleepEnd;
    var hours := GenerateActiveHours(start, end, cfg.activeHoursMin, cfg.activeHoursMax, draw);
    Agent(agentId, name, topics, start, end, hours, false, memories, memories, [], [], [])
  }

  // ---------------------------------------------------------------------
  // Presence

  /** `is_active`: forced, or the hour is one of today's active hours. */
  predicate IsActive(a: Agent, hour: int)
  {
    a.forceActive || hour in a.activeHours
  }

  /** `is_asleep`: never when forced, otherwise the sleep-window test. */
  predicate IsAsleep(a: Agent, hour: int)
  {
    !a.forceActive && InSleepWindow(a.sleepStart, a.sleepEnd, hour)
  }

  /** A persona is never active and asleep in the same hour. */
  lemma {:induction false} ActiveNotAsleep(a: Agent, hour: int)
    requires Valid(a)
    ensures !(IsActive(a, hour) && IsAsleep(a, hour))
  {
  }

  /** `set_force_active`: returns the new state. */
  function SetForceActive(a: Agent, state: bool): (r: (Agent, bool))
    ensures r.0 == a.(forceActive := state) && r.1 == state
    ensures state ==> forall h :: IsActive(r.0, h) && !IsAsleep(r.0, h)
    ensures !state ==> forall h :: (IsActive(r.0, h) <==> h in a.activeHours)
    ensures Valid(a) ==> Valid(r.0)
  {
    (a.(forceActive := state), state)
  }

  /** Switching the override on and back off restores the persona. */
  lemma {:induction false} ForceActiveUndo(a: Agent)
    requires !a.forceActive
    ensures SetForceActive(SetForceActive(a, true).0, false).0 == a
  {
  }

  /** `reset_daily_schedule`: a fresh draw of active hours, nothing else. */
  function ResetDailySchedule(a: Agent, cfg: Config, draw: ScheduleDraw): (r: Agent)
    requires ValidConfig(cfg)
    ensures r == a.(activeHours := r.activeHours)
    ensures r.activeHours == GenerateActiveHours(a.sleepStart, a.sleepEnd,
                                                 cfg.activeHoursMin, cfg.activeHoursMax, draw)
    ensures cfg.activeHoursMin <= |r.activeHours|
            || |r.activeHours| == |AvailableHours(a.sleepStart, a.sleepEnd)|
    ensures |r.activeHours| <= cfg.activeHoursMax
    ensures forall h :: h in r.activeHours ==>
              0 <= h < HoursPerDay && !InSleepWindow(a.sleepStart, a.sleepEnd, h)
    ensures Valid(a) ==> Valid(r)
  {
    a.(activeHours := GenerateActiveHours(a.sleepStart, a.sleepEnd,
                                          cfg.activeHoursMin, cfg.activeHoursMax, draw))
  }

  /** What `get_status` reports, in order of precedence. */
  datatype Status = ForcedActive | Sleeping | Online | Offline

  function GetStatus(a: Agent, hour: int): (s: Status)
    ensures s == ForcedActive <==> a.forceActive
    ensures s == Sleeping <==> IsAsleep(a, hour)
    ensures Valid(a) ==> (s == Online <==> !a.forceActive && IsActive(a, hour))
    ensures s == Offline <==> !IsActive(a, hour) && !IsAsleep(a, hour)
  {
    if a.forceActive then ForcedActive
    else if IsAsleep(a, hour) then Sleeping
    else if IsActive(a, hour) then Online
    else Offline
  }

  // ---------------------------------------------------------------------
  // Memory

  /** Characters one character takes inside a printed string: backslash and
      the tab, newline and carriage-return escapes take two, other control
      characters a four-character hex escape. */
  function CharReprLen(c: char): nat
  {
    if c == '\\' || c == '\n' || c == '\r' || c == '\t' then 2
    else if c < ' ' || c == '\U{007F}' then 4
    else 1
  }

  function Occurrences(s: string, c: char): nat
  {
    if |s| == 0 then 0 else (if s[0] == c then 1 else 0) + Occurrences(s[1..], c)
  }

  function EscapedLen(s: string): (n: nat)
    ensures n >= |s|
  {
    if |s| == 0 then 0 else CharReprLen(s[0]) + EscapedLen(s[1..])
  }

  /** Length of the printed form of a string: the quotes, the escaped
      characters, and a backslash before every single quote unless the
      string is printed in double quotes (it has a single quote and no
      double quote). */
  function ReprLen(s: string): (n: nat)
    ensures n >= |s| + 2
  {
    var quoteEscapes := if '\'' in s && '"' !in s then 0 else Occurrences(s, '\'');
    2 + EscapedLen(s) + quoteEscapes
  }

  /** Length of the printed form of a list of strings: brackets, and the
      entries separated by a comma and a space. */
  function ListReprLen(ms: seq<string>): (n: nat)
    ensures n >= 2
    ensures |ms| == 0 ==> n == 2
    ensures |ms| > 0 ==> n > ListReprLen(ms[1..])
  {
    if |ms| == 0 then 2
    else if |ms| == 1 then 2 + ReprLen(ms[0])
    else ReprLen(ms[0]) + 2 + ListReprLen(ms[1..])
  }

  /** A non-empty list prints at least as long as its last entry in brackets. */
  lemma {:induction false} ListReprLenLast(ms: seq<string>)
    requires |ms| > 0
    ensures ListReprLen(ms) >= ReprLen(ms[|ms| - 1]) + 2
    decreases |ms|
  {
    if |ms| > 1 {
      ListReprLenLast(ms[1..]);
    }
  }

  /** The eviction loop of `add_memory`: drop the oldest entry while the
      printed list is over the limit. The result is the longest suffix that
      fits; the empty list always fits, so the loop ends. */
  function Evict(ms: seq<string>): (r: seq<string>)
    ensures IsSuffix(r, ms)
    ensures ListReprLen(r) <= MemoryLimit
    ensures ListReprLen(ms) <= MemoryLimit ==> r == ms
    ensures |r| < |ms| ==> ListReprLen(ms[|ms| - |r| - 1..]) > MemoryLimit
    decreases |ms|
  {
    if ListReprLen(ms) <= MemoryLimit then ms
    else
      var r := Evict(ms[1..]);
      TailSlice(ms, |ms| - |r|);
      if |r| < |ms| - 1 then TailSlice(ms, |ms| - |r| - 1); r
      else assert ms[|ms| - |r| - 1..] == ms; r
  }

  /** A slice of the tail is a slice of the list. */
  lemma {:induction false} TailSlice<T>(ms: seq<T>, k: int)
    requires 1 <= k <= |ms|
    ensures ms[1..][k - 1..] == ms[k..]
  {
  }

  lemma {:induction false} SuffixTrans<T>(x: seq<T>, y: seq<T>, z: seq<T>)
    requires IsSuffix(x, y) && IsSuffix(y, z)
    ensures IsSuffix(x, z)
  {
    assert z[|z| - |x|..] == z[|z| - |y|..][|y| - |x|..];
  }

  lemma {:induction false} SuffixAppend<T>(x: seq<T>, y: seq<T>, z: seq<T>)
    requires IsSuffix(x, y)
    ensures IsSuffix(x + z, y + z)
  {
    assert (y + z)[|y + z| - |x + z|..] == y[|y| - |x|..] + z;
  }

  /** Two suffixes of one list: the shorter is a suffix of the longer. */
  lemma {:induction false} SuffixOfSuffix<T>(x: seq<T>, y: seq<T>, z: seq<T>)
    requires IsSuffix(x, z) && IsSuffix(y, z) && |x| <= |y|
    ensures IsSuffix(x, y)
  {
    assert y[|y| - |x|..] == z[|z| - |y|..][|y| - |x|..];
  }

  /** `Evict` keeps the longest suffix that fits: no suffix that fits is
      longer. */
  lemma {:induction false} EvictLongest(ms: seq<string>, s: seq<string>)
    requires IsSuffix(s, ms) && ListReprLen(s) <= MemoryLimit
    ensures |s| <= |Evict(ms)|
    decreases |ms|
  {
    if ListReprLen(ms) > MemoryLimit {
      TailSlice(ms, |ms| - |s|);
      EvictLongest(ms[1..], s);
      assert Evict(ms) == Evict(ms[1..]);
    }
  }

  /** Appending entries makes the printed list longer. */
  lemma {:induction false} ListReprLenGrows(s: seq<string>, z: seq<string>)
    requires |z| > 0
    ensures ListReprLen(s) < ListReprLen(s + z)
    decreases |s|
  {
    if |s| == 0 {
      assert s + z == z;
    } else if |s| == 1 {
      assert (s + z)[1..] == z;
    } else {
      assert (s + z)[1..] == s[1..] + z;
      ListReprLenGrows(s[1..], z);
    }
  }

  /** A suffix of `w + z` longer than `z` is a suffix of `w` followed by `z`. */
  lemma {:induction false} SuffixSplit<T>(u: seq<T>, w: seq<T>, z: seq<T>)
    requires IsSuffix(u, w + z) && |u| >= |z|
    ensures u == u[..|u| - |z|] + z
    ensures IsSuffix(u[..|u| - |z|], w)
  {
    var head := u[..|u| - |z|];
    assert w[|w| - |head|..] == (w + z)[|w + z| - |u|..][..|head|];
  }

  /** A kept suffix longer than the new entries: its older part fits on its
      own, so the earlier eviction kept it. */
  lemma {:induction false} EvictAgainLong(w: seq<string>, z: seq<string>, u: seq<string>)
    requires IsSuffix(u, w + z) && ListReprLen(u) <= MemoryLimit && |u| > |z| > 0
    ensures IsSuffix(u, Evict(w) + z)
  {
    var e := Evict(w);
    var head := u[..|u| - |z|];
    SuffixSplit(u, w, z);
    ListReprLenGrows(head, z);
    EvictLongest(w, head);
    SuffixOfSuffix(head, e, w);
    SuffixAppend(head, e, z);
  }

  /** A kept suffix no longer than the new entries is a suffix of them. */
  lemma {:induction false} EvictAgainShort(w: seq<string>, e: seq<string>, z: seq<string>, u: seq<string>)
    requires IsSuffix(u, w + z) && |u| <= |z|
    ensures IsSuffix(u, e + z)
  {
    assert IsSuffix(u, z) by {
      assert z[|z| - |u|..] == (w + z)[|w + z| - |u|..];
    }
    assert IsSuffix(z, e + z) by {
      assert (e + z)[|e|..] == z;
    }
    SuffixTrans(u, z, e + z);
  }

  /** What one eviction at the end keeps also survives an earlier eviction
      followed by the same entries. */
  lemma {:induction false} EvictAgainKeeps(w: seq<string>, z: seq<string>)
    requires |z| > 0
    ensures |Evict(w + z)| <= |Evict(Evict(w) + z)|
  {
    var u := Evict(w + z);
    if |u| > |z| {
      EvictAgainLong(w, z, u);
    } else {
      EvictAgainShort(w, Evict(w), z, u);
    }
    EvictLongest(Evict(w) + z, u);
  }

  /** Evicting before more entries arrive changes nothing: the entries kept
      are those one eviction at the end would keep. */
  lemma {:induction false} EvictAgain(w: seq<string>, z: seq<string>)
    requires |z| > 0
    ensures Evict(Evict(w) + z) == Evict(w + z)
  {
    var e := Evict(w);
    var v := Evict(e + z);
    var u := Evict(w + z);
    SuffixAppend(e, w, z);
    SuffixTrans(v, e + z, w + z);
    EvictLongest(w + z, v);
    EvictAgainKeeps(w, z);
    SameLengthSuffixes(u, v, w + z);
  }

  /** Two suffixes of one list with the same length are equal. */
  lemma {:induction false} SameLengthSuffixes<T>(x: seq<T>, y: seq<T>, z: seq<T>)
    requires IsSuffix(x, z) && IsSuffix(y, z) && |x| == |y|
    ensures x == y
  {
  }

  lemma {:induction false} EvictKeepsSuffix(memories: seq<string>, all: seq<string>, z: seq<string>)
    ensures IsSuffix(memories, all) ==> IsSuffix(Evict(memories + z), all + z)
  {
    if IsSuffix(memories, all) {
      SuffixAppend(memories, all, z);
      SuffixTrans(Evict(memories + z), memories + z, all + z);
    }
  }

  /** `add_memory`: the history gains the entry; the working memory gains it
      and then loses its oldest entries until its printed form fits. */
  function AddMemory(a: Agent, m: string): (r: Agent)
    ensures r.allMemories == a.allMemories + [m]
    ensures r.memories == Evict(a.memories + [m])
    ensures IsSuffix(r.memories, a.memories + [m])
    ensures ListReprLen(r.memories) <= MemoryLimit
    ensures ListReprLen(a.memories + [m]) <= MemoryLimit ==> r.memories == a.memories + [m]
    ensures r == a.(memories := r.memories, allMemories := r.allMemories)
    ensures Valid(a) ==> Valid(r)
  {
    EvictKeepsSuffix(a.memories, a.allMemories, [m]);
    a.(memories := Evict(a.memories + [m]), allMemories := a.allMemories + [m])
  }

  /** An entry whose printed form alone is over the limit is evicted at
      once, together with everything before it. */
  lemma {:induction false} OversizedMemoryEvicted(a: Agent, m: string)
    requires ReprLen(m) + 2 > MemoryLimit
    ensures AddMemory(a, m).memories == []
    ensures AddMemory(a, m).allMemories == a.allMemories + [m]
  {
    var r := AddMemory(a, m).memories;
    var ms := a.memories + [m];
    if |r| > 0 {
      assert r[|r| - 1] == m by {
        assert r == ms[|ms| - |r|..];
      }
      ListReprLenLast(r);
    }
  }

  lemma {:induction false} ConsAppend<T>(x: seq<T>, ms: seq<T>)
    requires |ms| > 0
    ensures x + [ms[0]] + ms[1..] == x + ms
  {
    assert ms == [ms[0]] + ms[1..];
  }

  lemma {:induction false} AddMemoriesStep(memories: seq<string>, ms: seq<string>)
    requires |ms| > 0
    ensures |ms| > 1 ==> Evict(Evict(memories + [ms[0]]) + ms[1..]) == Evict(memories + ms)
    ensures |ms| == 1 ==> Evict(memories + [ms[0]]) == Evict(memories + ms)
  {
    ConsAppend(memories, ms);
    if |ms| > 1 {
      EvictAgain(memories + [ms[0]], ms[1..]);
    } else {
      assert ms == [ms[0]];
    }
  }

  /** `add_memory` once per entry, in order: the working memory ends as if
      all entries were appended and evicted once. */
  function AddMemories(a: Agent, ms: seq<string>): (r: Agent)
    ensures r == a.(memories := r.memories, allMemories := a.allMemories + ms)
    ensures |ms| == 0 ==> r == a
    ensures |ms| > 0 ==> r.memories == Evict(a.memories + ms)
    decreases |ms|
  {
    if |ms| == 0 then
      assert a.allMemories + ms == a.allMemories;
      a
    else
      var b := AddMemory(a, ms[0]);
      AddMemoriesStep(a.memories, ms);
      ConsAppend(a.allMemories, ms);
      AddMemories(b, ms[1..])
  }

  /** Adding a batch of memories keeps the working memory a suffix of the
      history and within the limit. */
  lemma {:induction false} AddMemoriesValid(a: Agent, ms: seq<string>)
    ensures Valid(a) ==> Valid(AddMemories(a, ms))
    ensures |ms| > 0 ==> ListReprLen(AddMemories(a, ms).memories) <= MemoryLimit
  {
    EvictKeepsSuffix(a.memories, a.allMemories, ms);
  }

  // ---------------------------------------------------------------------
  // Posting and commenting

  /** The prompt `create_post` builds from an interest topic. */
  function DefaultPostPrompt(topic: string): string
  {
    "创建一个" + About + topic + PromptTail
  }

  const PromptTail := "的帖子，这个帖子对社区成员会有吸引力。"

  const About := "关于"

  /** The memory `create_post` records: the part of the prompt between the
      first and second "关于", or the whole prompt when it has none. */
  function PostMemory(prompt: string): (m: string)
    ensures Contains(prompt, About) ==> m == "创建了一个关于" + After(prompt, About) + "的帖子"
    ensures !Contains(prompt, About) ==> m == "创建了一个关于" + prompt + "的帖子"
  {
    "创建了一个关于" + (if Contains(prompt, About) then After(prompt, About) else prompt) + "的帖子"
  }

  /** With the default prompt the recorded memory carries the rest of the
      prompt after the topic, so "的帖子" appears twice. */
  lemma {:induction false} DefaultPromptMemory(topic: string)
    requires forall i :: 0 <= i < |topic| ==> topic[i] != '关'
    ensures PostMemory(DefaultPostPrompt(topic)) == "创建了一个关于" + topic + PromptTail + "的帖子"
  {
    var p := DefaultPostPrompt(topic);
    var rest := topic + PromptTail;
    DefaultPromptFind(topic);
    DefaultPromptRest(topic);
    AfterAt(p, About, 4);
  }

  /** The default prompt's first "关于" is the one before the topic. */
  lemma {:induction false} DefaultPromptFind(topic: string)
    ensures Find(DefaultPostPrompt(topic), About) == Some(4)
    ensures DefaultPostPrompt(topic)[4 + |About|..] == topic + PromptTail
  {
    var p := DefaultPostPrompt(topic);
    assert p == "创建一个" + About + (topic + PromptTail);
    assert p[4..6] == About;
    NoEarlierStart(p, About, 4);
    FindFirst(p, About, 4);
  }

  /** A topic without "关" leaves no "关于" after it in the default prompt. */
  lemma {:induction false} DefaultPromptRest(topic: string)
    requires forall i :: 0 <= i < |topic| ==> topic[i] != '关'
    ensures !Contains(topic + PromptTail, About)
  {
    MissingFirstChar(topic + PromptTail, About);
  }

  /** The memory `comment_on_post` records about the post it answered. */
  function CommentMemory(post: Post): string
  {
    "评论了" + post.authorName + "的关于" + Take(post.content, 30) + "...的帖子"
  }

  /** `create_post` at `hour`: an inactive persona without a prompt does
      nothing; otherwise the prompt (the given one, or one built from the
      interest topic `topicPick` selects) goes to the model, and a reply
      becomes a post, an entry in the persona's post list and a memory. */
  function CreatePost(a: Agent, c: Community, hour: int, prompt: Option<string>, topicPick: nat,
                      reply: Option<string>, freshId: string, now: int): (r: (Agent, Community, Option<string>))
    requires prompt.Some? || !IsActive(a, hour) || |a.topics| > 0
    ensures r.2.None? <==> (prompt.None? && !IsActive(a, hour)) || reply.None?
    ensures r.2.None? ==> r.0 == a && r.1 == c
    ensures r.2.Some? ==>
              && r.2.value == freshId
              && freshId in r.1.posts
              && r.1.posts[freshId] == Post(freshId, a.agentId, a.name, reply.value, now, 0)
              && r.1.comments == c.comments
              && r.0.posts == a.posts + [freshId]
              && r.0.allMemories == a.allMemories + [PostMemory(
                   if prompt.Some? then prompt.value
                   else DefaultPostPrompt(a.topics[topicPick % |a.topics|]))]
              && r.0.memories == Evict(a.memories + [PostMemory(
                   if prompt.Some? then prompt.value
                   else DefaultPostPrompt(a.topics[topicPick % |a.topics|]))])
              && r.0 == a.(posts := r.0.posts, memories := r.0.memories, allMemories := r.0.allMemories)
    ensures Grows(c, r.1)
    ensures Valid(a) ==> Valid(r.0)
    ensures Communities.Valid(c) ==> Communities.Valid(r.1)
  {
    if !IsActive(a, hour) && prompt.None? then (a, c, None)
    else
      var p := if prompt.Some? then prompt.value
               else DefaultPostPrompt(a.topics[topicPick % |a.topics|]);
      if reply.None? then (a, c, None)
      else
        var (d, postId) := AddPost(c, a.agentId, a.name, reply.value, freshId, now);
        var b := AddMemory(a.(posts := a.posts + [postId]), PostMemory(p));
        (b, d, Some(postId))
  }

  /** `comment_on_post` at `hour`: nothing for an inactive persona without a
      prompt or for an unknown post; otherwise a reply becomes a comment on
      the post, an entry in the persona's comment list and a memory. */
  function CommentOnPost(a: Agent, c: Community, hour: int, postId: string, prompt: Option<string>,
                         reply: Option<string>, freshId: string, now: int): (r: (Agent, Community, Option<string>))
    requires Communities.Valid(c)
    ensures r.2.None? <==> (prompt.None? && !IsActive(a, hour)) || postId !in c.posts || reply.None?
    ensures r.2.None? ==> r.0 == a && r.1 == c
    ensures r.2.Some? ==>
              && r.2.value == freshId
              && freshId in r.1.comments
              && r.1.comments[freshId] == Comment(freshId, postId, a.agentId, a.name, reply.value, now, 0)
              && postId in r.1.postComments && postId in c.postComments
              && r.1.postComments[postId] == c.postComments[postId] + [freshId]
              && r.1.posts == c.posts
              && r.0.comments == a.comments + [freshId]
              && r.0.allMemories == a.allMemories + [CommentMemory(c.posts[postId])]
              && r.0.memories == Evict(a.memories + [CommentMemory(c.posts[postId])])
              && r.0 == a.(comments := r.0.comments, memories := r.0.memories, allMemories := r.0.allMemories)
    ensures Grows(c, r.1)
    ensures Valid(a) ==> Valid(r.0)
    ensures Communities.Valid(r.1)
  {
    if !IsActive(a, hour) && prompt.None? then (a, c, None)
    else
      match GetPost(c, postId)
      case None => (a, c, None)
      case Some(post) =>
        if reply.None? then (a, c, None)
        else
          var (b, d) := StoreComment(a, c, post, reply.value, freshId, now);
          (b, d, Some(freshId))
  }

  /** The success path of `comment_on_post`: the comment is stored under the
      post, listed by the persona and remembered. */
  function StoreComment(a: Agent, c: Community, post: Post, text: string, freshId: string, now: int): (r: (Agent, Community))
    requires Communities.Valid(c) && post.postId in c.posts && c.posts[post.postId] == post
    ensures freshId in r.1.comments
    ensures r.1.comments[freshId] == Comment(freshId, post.postId, a.agentId, a.name, text, now, 0)
    ensures post.postId in r.1.postComments && post.postId in c.postComments
    ensures r.1.postComments[post.postId] == c.postComments[post.postId] + [freshId]
    ensures r.1.posts == c.posts
    ensures r.0.comments == a.comments + [freshId]
    ensures r.0.allMemories == a.allMemories + [CommentMemory(post)]
    ensures r.0.memories == Evict(a.memories + [CommentMemory(post)])
    ensures r.0 == a.(comments := r.0.comments, memories := r.0.memories, allMemories := r.0.allMemories)
    ensures Grows(c, r.1)
    ensures Valid(a) ==> Valid(r.0)
    ensures Communities.Valid(r.1)
  {
    var (d, commentId) := AddComment(c, post.postId, a.agentId, a.name, text, freshId, now);
    var b := AddMemory(a.(comments := a.comments + [freshId]), CommentMemory(post));
    (b, d)
  }

  // ---------------------------------------------------------------------
  // Sleep-time learning

  const InsightTag := "[灵感] "

  /** The reply lines `process_sleep_learning` keeps: not blank, not a
      heading, and longer than ten characters before stripping. */
  predicate KeepLine(line: string)
  {
    Strip(line) != [] && !StartsWith(line, "#") && |line| > 10
  }

  /** The memories made from the kept lines, in order, each tagged and
      stripped. */
  function Insights(lines: seq<string>): (r: seq<string>)
    ensures |r| <= |lines|
    ensures forall i :: 0 <= i < |r| ==> IsPrefix(InsightTag, r[i]) && |r[i]| > |InsightTag|
  {
    if |lines| == 0 then []
    else (if KeepLine(lines[0]) then [InsightTag + Strip(lines[0])] else []) + Insights(lines[1..])
  }

  /** The memories are exactly the tagged, stripped kept lines. */
  lemma {:induction false} InsightsExactly(lines: seq<string>)
    ensures forall m :: m in Insights(lines) <==>
              exists i :: 0 <= i < |lines| && KeepLine(lines[i]) && m == InsightTag + Strip(lines[i])
  {
    InsightsSound(lines);
    InsightsComplete(lines);
  }

  /** Every memory comes from a kept line. */
  lemma {:induction false} InsightsSound(lines: seq<string>)
    ensures forall m :: m in Insights(lines) ==>
              exists i :: 0 <= i < |lines| && KeepLine(lines[i]) && m == InsightTag + Strip(lines[i])
    decreases |lines|
  {
    if |lines| > 0 {
      var tail := lines[1..];
      InsightsSound(tail);
      forall m | m in Insights(lines)
        ensures exists i :: 0 <= i < |lines| && KeepLine(lines[i]) && m == InsightTag + Strip(lines[i])
      {
        if m in Insights(tail) {
          var i :| 0 <= i < |tail| && KeepLine(tail[i]) && m == InsightTag + Strip(tail[i]);
          assert tail[i] == lines[i + 1];
        }
      }
    }
  }

  /** Every kept line gives a memory. */
  lemma {:induction false} InsightsComplete(lines: seq<string>)
    ensures forall i :: 0 <= i < |lines| && KeepLine(lines[i]) ==> InsightTag + Strip(lines[i]) in Insights(lines)
    decreases |lines|
  {
    if |lines| > 0 {
      var tail := lines[1..];
      InsightsComplete(tail);
      forall i | 1 <= i < |lines| && KeepLine(lines[i])
        ensures InsightTag + Strip(lines[i]) in Insights(lines)
      {
        assert tail[i - 1] == lines[i];
      }
    }
  }

  /** One line on its own: a heading, a blank line or a line of at most ten
      characters gives nothing; any other line gives its stripped text,
      tagged. */
  lemma {:induction false} InsightOfLine(l: string)
    ensures StartsWith(l, "#") ==> Insights([l]) == []
    ensures (forall i :: 0 <= i < |l| ==> IsSpace(l[i])) ==> Insights([l]) == []
    ensures |l| <= 10 ==> Insights([l]) == []
    ensures !StartsWith(l, "#") && (exists i :: 0 <= i < |l| && !IsSpace(l[i])) && |l| > 10 ==>
              Insights([l]) == [InsightTag + Strip(l)]
  {
    assert [l][1..] == [];
  }

  /** Lines are judged one by one: the memories of two blocks of lines are
      the memories of each block, in order. */
  lemma {:induction false} InsightsAppend(xs: seq<string>, ys: seq<string>)
    ensures Insights(xs + ys) == Insights(xs) + Insights(ys)
    decreases |xs|
  {
    if |xs| > 0 {
      assert (xs + ys)[1..] == xs[1..] + ys;
      InsightsAppend(xs[1..], ys);
    } else {
      assert xs + ys == ys;
    }
  }

  /** `process_sleep_learning` at `hour`: only while asleep, and only when
      the model replies; the reply is kept as an inspiration and every kept
      line of it becomes a memory. */
  function ProcessSleepLearning(a: Agent, hour: int, reply: Option<string>): (r: (Agent, Option<string>))
    ensures r.1.Some? <==> IsAsleep(a, hour) && reply.Some?
    ensures r.1.None? ==> r.0 == a
    ensures r.1.Some? ==>
              && r.1 == reply
              && r.0.inspirations == a.inspirations + [reply.value]
              && r.0.allMemories == a.allMemories + Insights(Split(reply.value, "\n"))
              && r.0.memories == (if |Insights(Split(reply.value, "\n"))| == 0 then a.memories
                                  else Evict(a.memories + Insights(Split(reply.value, "\n"))))
              && r.0 == a.(inspirations := r.0.inspirations, memories := r.0.memories,
                           allMemories := r.0.allMemories)
    ensures Valid(a) ==> Valid(r.0)
  {
    if !IsAsleep(a, hour) || reply.None? then (a, None)
    else (LearnFrom(a, reply.value), reply)
  }

  /** The learning itself: the text is kept as an inspiration and its kept
      lines are added as memories, one by one. */
  function LearnFrom(a: Agent, text: string): (r: Agent)
    ensures r.inspirations == a.inspirations + [text]
    ensures r.allMemories == a.allMemories + Insights(Split(text, "\n"))
    ensures r.memories == (if |Insights(Split(text, "\n"))| == 0 then a.memories
                           else Evict(a.memories + Insights(Split(text, "\n"))))
    ensures r == a.(inspirations := r.inspirations, memories := r.memories, allMemories := r.allMemories)
    ensures Valid(a) ==> Valid(r)
  {
    var ins := Insights(Split(text, "\n"));
    var b := a.(inspirations := a.inspirations + [text]);
    AddMemoriesValid(b, ins);
    AddMemories(b, ins)
  }

  /** The hour a sleep window ends is not a sleeping hour, so learning then
      changes nothing. */
  lemma {:induction false} NoLearningAtWake(a: Agent, reply: Option<string>)
    ensures ProcessSleepLearning(a, a.sleepEnd, reply) == (a, None)
  {
    SleepEndNotInWindow(a.sleepStart, a.sleepEnd);
  }
}

=== FILE: analyzer.dfy ===
/**
  The post analyzer: one cached analysis per post id (the model's text, or
  a fixed failure text when there is no reply), the interest score a persona
  derives from it, and the reply decision.

  The model reply is a parameter (`None` for no reply) and so is the current
  time; the persona enters only through its interest topics, since the rest
  of it only shapes the prompt.
 */
module Analyzer {
  import opened Wrappers
  import opened Strings
  import opened Utils
  import opened Communities
  import opened Behavior

  datatype Analysis = Analysis(postId: string, timestamp: int, analysis: string, summary: string)

  type AnalysisCache = map<string, Analysis>

  const FailureText := "无法分析此帖子。"
  const SummaryLength := 100
  const RelevanceMarker := "与你相关度"
  const ReplyMarker := "是否值得回复"

  /** Every cached analysis is stored under its own post id. */
  ghost predicate Valid(cache: AnalysisCache)
  {
    forall id :: id in cache ==> cache[id].postId == id
  }

  /** `analyze_post`: the cached record when there is one; otherwise a new
      record, with the model's text or the failure text, is cached and
      returned. */
  function AnalyzePost(cache: AnalysisCache, post: Post, reply: Option<string>, now: int): (r: (Analysis, AnalysisCache))
    ensures post.postId in cache ==> r == (cache[post.postId], cache)
    ensures post.postId !in cache ==>
              && r.0 == Analysis(post.postId, now, reply.GetOr(FailureText),
                                 SummarizeText(post.content, SummaryLength))
              && r.1 == cache[post.postId := r.0]
    ensures post.postId in r.1 && r.1[post.postId] == r.0
    ensures Valid(cache) ==> Valid(r.1) && r.0.postId == post.postId
  {
    if post.postId in cache then (cache[post.postId], cache)
    else
      var text := match reply case Some(t) => t case None => FailureText;
      var record := Analysis(post.postId, now, text, SummarizeText(post.content, SummaryLength));
      (record, cache[post.postId := record])
  }

  /** A second analysis of the same post returns the first record and leaves
      the cache alone, whatever the new reply and time, failure records
      included. */
  lemma {:induction false} AnalyzeTwice(cache: AnalysisCache, post: Post, reply1: Option<string>, now1: int,
                     reply2: Option<string>, now2: int)
    ensures var (first, next) := AnalyzePost(cache, post, reply1, now1);
            AnalyzePost(next, post, reply2, now2) == (first, next)
  {
  }

  /** The relevance adjustment: +3, +1 or -2 for the first of 高, 中, 低,
      tested in that order, that occurs in the text after the first relevance
      marker up to the end of its line. */
  function RelevanceDelta(analysis: string): (d: int)
    ensures d == 3 || d == 1 || d == -2 || d == 0
    ensures !Contains(analysis, RelevanceMarker) ==> d == 0
  {
    if !Contains(analysis, RelevanceMarker) then 0
    else
      var line := Lower(Split(After(analysis, RelevanceMarker), "\n")[0]);
      if Contains(line, "高") then 3
      else if Contains(line, "中") then 1
      else if Contains(line, "低") then -2
      else 0
  }

  /** The relevance line is the text after the first marker up to the end
      of the line, when no marker comes earlier and none is on the line. */
  lemma {:induction false} MarkedLineText(pre: string, line: string, rest: string)
    requires !Contains(pre, RelevanceMarker) && !Contains(line, RelevanceMarker) && '\n' !in line
    ensures Contains(pre + RelevanceMarker + line + "\n" + rest, RelevanceMarker)
    ensures Split(After(pre + RelevanceMarker + line + "\n" + rest, RelevanceMarker), "\n")[0] == line
  {
    var m := RelevanceMarker;
    var tail := line + "\n" + rest;
    var s := pre + m + line + "\n" + rest;
    assert s == pre + m + tail;
    assert m == ['与', '你', '相', '关', '度'];
    FindPlaced(pre, m, tail);
    assert s[|pre| + |m|..] == tail;
    var seg := Split(tail, m)[0];
    assert After(s, m) == seg;
    assert '\n' !in m;
    SplitKeepsLine(line, rest, m);
    FirstLine(seg, line);
  }

  /** The relevance table on the text: a marked line containing 高 adds 3;
      otherwise 中 adds 1; otherwise 低 subtracts 2; otherwise nothing. */
  lemma {:induction false} RelevanceTable(pre: string, line: string, rest: string)
    requires !Contains(pre, RelevanceMarker) && !Contains(line, RelevanceMarker) && '\n' !in line
    ensures var d := RelevanceDelta(pre + RelevanceMarker + line + "\n" + rest);
            && (Contains(line, "高") ==> d == 3)
            && (!Contains(line, "高") && Contains(line, "中") ==> d == 1)
            && (!Contains(line, "高") && !Contains(line, "中") && Contains(line, "低") ==> d == -2)
            && (!Contains(line, "高") && !Contains(line, "中") && !Contains(line, "低") ==> d == 0)
  {
    MarkedLineText(pre, line, rest);
    assert "高" == ['高'] && "中" == ['中'] && "低" == ['低'];
    LowerKeepsChar(line, '高');
    LowerKeepsChar(line, '中');
    LowerKeepsChar(line, '低');
  }

  /** The number of interest topics found in the content, case-insensitively,
      one per listed topic. */
  function TopicHits(content: string, topics: seq<string>): (n: nat)
    ensures n <= |topics|
    ensures n > 0 <==> MentionsTopic(content, topics)
  {
    if |topics| == 0 then 0
    else (if Contains(Lower(content), Lower(topics[0])) then 1 else 0) + TopicHits(content, topics[1..])
  }

  function Clamp(x: int, lo: int, hi: int): (r: int)
    requires lo <= hi
    ensures lo <= r <= hi
    ensures lo <= x <= hi ==> r == x
  {
    if x < lo then lo else if x > hi then hi else x
  }

  /** `get_interest_level`: 5, adjusted by the relevance line and the topic
      hits, clamped to `[0, 10]`; the analysis it reads may be created and
      cached first. */
  function GetInterestLevel(cache: AnalysisCache, post: Post, topics: seq<string>,
                            reply: Option<string>, now: int): (r: (int, AnalysisCache))
    ensures 0 <= r.0 <= 10
    ensures var (record, next) := AnalyzePost(cache, post, reply, now);
            && r.1 == next
            && r.0 == Clamp(5 + RelevanceDelta(record.analysis) + TopicHits(post.content, topics), 0, 10)
  {
    var (record, next) := AnalyzePost(cache, post, reply, now);
    var level := 5 + RelevanceDelta(record.analysis) + TopicHits(post.content, topics);
    (Clamp(level, 0, 10), next)
  }

  /** The lower clamp never acts: the score is at least 3, reached only when
      the relevance line says 低 and no topic matches. */
  lemma {:induction false} InterestAtLeastThree(cache: AnalysisCache, post: Post, topics: seq<string>,
                             reply: Option<string>, now: int)
    ensures var (level, _) := GetInterestLevel(cache, post, topics, reply, now);
            && 3 <= level
            && (level == 3 ==> TopicHits(post.content, topics) == 0)
  {
  }

  /** With no prior analysis and no reply the relevance line is absent and
      the score counts topic hits only. */
  lemma {:induction false} FailedAnalysisScore(cache: AnalysisCache, post: Post, topics: seq<string>, now: int)
    requires post.postId !in cache
    ensures GetInterestLevel(cache, post, topics, None, now).0
            == Clamp(5 + TopicHits(post.content, topics), 0, 10)
  {
    FailureTextIrrelevant();
    UnmarkedScore(cache, post, topics, None, now);
  }

  /** The failure text carries no relevance line. */
  lemma {:induction false} FailureTextIrrelevant()
    ensures !Contains(FailureText, RelevanceMarker)
  {
    MissingFirstChar(FailureText, RelevanceMarker);
  }

  /** An analysis without a relevance line leaves the topic hits alone to
      move the score. */
  lemma {:induction false} UnmarkedScore(cache: AnalysisCache, post: Post, topics: seq<string>,
                                         reply: Option<string>, now: int)
    requires !Contains(AnalyzePost(cache, post, reply, now).0.analysis, RelevanceMarker)
    ensures GetInterestLevel(cache, post, topics, reply, now).0
            == Clamp(5 + TopicHits(post.content, topics), 0, 10)
  {
  }

  /** Each topic the content mentions raises the score, up to the cap. */
  lemma {:induction false} MoreTopicsNoLowerInterest(cache: AnalysisCache, post: Post, topics: seq<string>, extra: string,
                                  reply: Option<string>, now: int)
    ensures GetInterestLevel(cache, post, topics, reply, now).0
            <= GetInterestLevel(cache, post, topics + [extra], reply, now).0
  {
    TopicHitsAppend(post.content, topics, [extra]);
  }

  lemma {:induction false} TopicHitsAppend(content: string, xs: seq<string>, ys: seq<string>)
    ensures TopicHits(content, xs + ys) == TopicHits(content, xs) + TopicHits(content, ys)
    decreases |xs|
  {
    if |xs| > 0 {
      assert (xs + ys)[1..] == xs[1..] + ys;
      TopicHitsAppend(content, xs[1..], ys);
    } else {
      assert xs + ys == ys;
    }
  }

  /** The analysis text says the post deserves a reply: "是" after the first
      reply marker, up to the next one, lower-cased. */
  predicate SaysReply(analysis: string)
  {
    Contains(analysis, ReplyMarker) && Contains(Lower(After(analysis, ReplyMarker)), Yes)
  }

  /** `should_agent_reply`: yes when the analysis says so, yes when the
      content mentions an interest topic, otherwise a coin draw. */
  function ShouldAgentReply(cache: AnalysisCache, post: Post, topics: seq<string>,
                            reply: Option<string>, now: int, draw: real): (r: (bool, AnalysisCache))
    ensures var (record, next) := AnalyzePost(cache, post, reply, now);
            && r.1 == next
            && (r.0 <==> SaysReply(record.analysis) || MentionsTopic(post.content, topics) || draw < 0.5)
  {
    var (record, next) := AnalyzePost(cache, post, reply, now);
    if SaysReply(record.analysis) then (true, next)
    else if MentionsTopic(post.content, topics) then (true, next)
    else (draw < 0.5, next)
  }

  /** A persona declines to reply only to a post with no topic hit, which it
      scores at most 8. */
  lemma {:induction false} DeclinedPostsScoreLow(cache: AnalysisCache, post: Post, topics: seq<string>,
                              reply: Option<string>, now: int, draw: real)
    requires !ShouldAgentReply(cache, post, topics, reply, now, draw).0
    ensures TopicHits(post.content, topics) == 0
    ensures GetInterestLevel(cache, post, topics, reply, now).0 <= 8
  {
  }
}

=== FILE: behavior.dfy ===
/**
  The decision policy: whether a persona should post, or comment on a given
  post, decided by a sequence of gates and, failing those, by asking the
  language model for "是" (yes) or anything else, with each model answer
  cached under a string key.

  `random.random()` draws are `real` parameters meant to lie in `[0, 1)`;
  a model reply is `None` when the call yields no choice or fails, which
  falls back to a coin draw.
 */
module Behavior {
  import opened Wrappers
  import opened Strings
  import opened Communities
  import opened Agents

  type Cache = map<string, bool>

  const Yes := "是"

  /** The reply parser: "是" among the first ten characters of the stripped,
      lower-cased reply. */
  predicate ParseYes(reply: string)
  {
    Contains(Take(Lower(Strip(reply)), 10), Yes)
  }

  /** A "是" among the first ten stripped characters makes the answer yes. */
  lemma {:induction false} ParseYesIfEarly(reply: string, i: nat)
    requires var t := Lower(Strip(reply)); i < |t| && i < 10 && t[i] == '是'
    ensures ParseYes(reply)
  {
    YesInHead(Lower(Strip(reply)), i);
  }

  lemma {:induction false} YesInHead(t: string, i: nat)
    requires i < |t| && i < 10 && t[i] == '是'
    ensures Contains(Take(t, 10), Yes)
  {
    var head := Take(t, 10);
    assert head[i] == t[i];
    assert head[i..i + 1] == Yes;
    assert OccursAt(head, Yes, i);
    ContainsIff(head, Yes);
  }

  /** A yes answer always comes from a "是" among the first ten stripped
      characters. */
  lemma {:induction false} ParseYesOnlyIfEarly(reply: string) returns (i: nat)
    requires ParseYes(reply)
    ensures var t := Lower(Strip(reply)); i < |t| && i < 10 && t[i] == '是'
  {
    var t := Lower(Strip(reply));
    var head := Take(t, 10);
    ContainsIff(head, Yes);
    var j :| 0 <= j <= |head| && OccursAt(head, Yes, j);
    assert head[j..j + 1][0] == head[j];
    i := j;
  }

  /** `_make_llm_decision`: the parsed reply, or a fair coin without one. */
  function LlmDecision(reply: Option<string>, draw: real): (d: bool)
    ensures reply.Some? ==> (d <==> ParseYes(reply.value))
    ensures reply.None? ==> (d <==> draw < 0.5)
  {
    match reply
    case Some(text) => ParseYes(text)
    case None => draw < 0.5
  }

  /** The key of a post decision: the persona and its working-memory size. */
  function PostDecisionKey(agentId: string, memoryCount: nat): string
  {
    "post_decision_" + agentId + "_" + Decimal(memoryCount)
  }

  /** The key of a comment decision: the persona and the post. */
  function CommentDecisionKey(agentId: string, postId: string): string
  {
    "comment_decision_" + agentId + "_" + postId
  }

  /** A new memory count gives a new post-decision key. */
  lemma {:induction false} PostKeyDistinguishesCounts(agentId: string, n: nat, m: nat)
    requires PostDecisionKey(agentId, n) == PostDecisionKey(agentId, m)
    ensures n == m
  {
    var prefix := "post_decision_" + agentId + "_";
    assert PostDecisionKey(agentId, n) == prefix + Decimal(n);
    assert Decimal(n) == PostDecisionKey(agentId, n)[|prefix|..];
    assert Decimal(m) == PostDecisionKey(agentId, m)[|prefix|..];
    DecimalInjective(n, m);
  }

  /** The cache only gains entries, and at most the one for `key`. */
  ghost predicate CacheGrows(cache: Cache, next: Cache, key: string)
  {
    && (forall k :: k in cache ==> k in next && next[k] == cache[k])
    && (forall k :: k in next ==> k in cache || k == key)
  }

  /** More than ten own posts: the throttle draw can veto posting. */
  predicate Throttled(a: Agent, c: Community, throttleDraw: real)
  {
    |GetAllPosts(c, None, Some(a.agentId))| > 10 && throttleDraw > 0.3
  }

  /** `should_create_post`: forced, throttled, cached, or asked. */
  function ShouldCreatePost(cache: Cache, a: Agent, c: Community, force: bool,
                            throttleDraw: real, reply: Option<string>, coinDraw: real): (r: (bool, Cache))
    ensures force ==> r == (true, cache)
    ensures !force && Throttled(a, c, throttleDraw) ==> r == (false, cache)
    ensures var key := PostDecisionKey(a.agentId, |a.memories|);
            && CacheGrows(cache, r.1, key)
            && (!force && !Throttled(a, c, throttleDraw) ==>
                  && key in r.1 && r.0 == r.1[key]
                  && (key in cache ==> r.1 == cache)
                  && (key !in cache ==> r.0 == LlmDecision(reply, coinDraw)))
  {
    if force then (true, cache)
    else if Throttled(a, c, throttleDraw) then (false, cache)
    else
      var key := PostDecisionKey(a.agentId, |a.memories|);
      if key in cache then (cache[key], cache)
      else
        var d := LlmDecision(reply, coinDraw);
        (d, cache[key := d])
  }

  /** Once made, a post decision is repeated without asking again, whatever
      the new reply or draw, while the working-memory size stays the same. */
  lemma {:induction false} PostDecisionSticks(cache: Cache, a: Agent, c: Community, t1: real, reply1: Option<string>,
                           d1: real, t2: real, reply2: Option<string>, d2: real)
    requires !Throttled(a, c, t1) && !Throttled(a, c, t2)
    ensures var (first, next) := ShouldCreatePost(cache, a, c, false, t1, reply1, d1);
            ShouldCreatePost(next, a, c, false, t2, reply2, d2) == (first, next)
  {
  }

  /** The persona has a comment under the post. */
  predicate AlreadyCommented(a: Agent, c: Community, postId: string)
  {
    exists m :: m in GetPostComments(c, postId) && m.authorId == a.agentId
  }

  /** `should_comment_on_post`: forced, own post (a one-in-ten draw),
      already commented, cached, or asked. */
  function ShouldCommentOnPost(cache: Cache, a: Agent, post: Post, c: Community, force: bool,
                               selfDraw: real, reply: Option<string>, coinDraw: real): (r: (bool, Cache))
    ensures force ==> r == (true, cache)
    ensures !force && post.authorId == a.agentId ==> r == (selfDraw < 0.1, cache)
    ensures !force && post.authorId != a.agentId && AlreadyCommented(a, c, post.postId) ==>
              r == (false, cache)
    ensures var key := CommentDecisionKey(a.agentId, post.postId);
            && CacheGrows(cache, r.1, key)
            && (!force && post.authorId != a.agentId && !AlreadyCommented(a, c, post.postId) ==>
                  && key in r.1 && r.0 == r.1[key]
                  && (key in cache ==> r.1 == cache)
                  && (key !in cache ==> r.0 == LlmDecision(reply, coinDraw)))
  {
    if force then (true, cache)
    else if post.authorId == a.agentId then (selfDraw < 0.1, cache)
    else if AlreadyCommented(a, c, post.postId) then (false, cache)
    else
      var key := CommentDecisionKey(a.agentId, post.postId);
      if key in cache then (cache[key], cache)
      else
        var d := LlmDecision(reply, coinDraw);
        (d, cache[key := d])
  }

  /** A persona never comments twice unless forced: once its comment is
      under the post, the answer is no. */
  lemma {:induction false} NoSecondComment(cache: Cache, a: Agent, c: Community, hour: int, post: Post,
                        prompt: Option<string>, text: string, freshId: string, now: int,
                        selfDraw: real, reply: Option<string>, coinDraw: real)
    requires Communities.Valid(c) && post.postId in c.posts && post.authorId != a.agentId
    requires prompt.Some? || IsActive(a, hour)
    ensures var (b, d, _) := CommentOnPost(a, c, hour, post.postId, prompt, Some(text), freshId, now);
            ShouldCommentOnPost(cache, b, post, d, false, selfDraw, reply, coinDraw) == (false, cache)
  {
    var (b, d, _) := CommentOnPost(a, c, hour, post.postId, prompt, Some(text), freshId, now);
    CommentListedAfterAdd(c, post.postId, a.agentId, a.name, text, freshId, now);
    assert d.comments[freshId] in GetPostComments(d, post.postId);
    assert b.agentId == a.agentId;
  }

  /** `clear_cache` */
  function ClearCache(cache: Cache): (r: Cache)
    ensures |r| == 0
  {
    map[]
  }

  /** After clearing, the next unforced, unthrottled post decision asks the
      model again. */
  lemma {:induction false} ClearedCacheAsks(cache: Cache, a: Agent, c: Community, t: real, reply: Option<string>, d: real)
    requires !Throttled(a, c, t)
    ensures ShouldCreatePost(ClearCache(cache), a, c, false, t, reply, d).0 == LlmDecision(reply, d)
  {
  }

  // ---------------------------------------------------------------------
  // Topic selection

  /** Some interest topic occurs in the memory, both lower-cased. */
  function MentionsTopic(memory: string, topics: seq<string>): (b: bool)
    ensures b <==> exists i :: 0 <= i < |topics| && Contains(Lower(memory), Lower(topics[i]))
  {
    if |topics| == 0 then false
    else Contains(Lower(memory), Lower(topics[0])) || MentionsTopic(memory, topics[1..])
  }

  /** The memories that mention an interest topic, in order. */
  function RelevantMemories(ms: seq<string>, topics: seq<string>): (r: seq<string>)
    ensures forall m :: m in r <==> m in ms && MentionsTopic(m, topics)
  {
    if |ms| == 0 then []
    else (if MentionsTopic(ms[0], topics) then [ms[0]] else []) + RelevantMemories(ms[1..], topics)
  }

  const PostTopicTail := "的帖子，展示你的专业知识和见解"

  /** The topic line naming `base` alone. */
  function PlainTopic(base: string): string
  {
    "关于" + base + PostTopicTail
  }

  /** The topic line naming `base` and quoting memory `m` as inspiration. */
  function InspiredTopic(base: string, m: string): string
  {
    "关于" + base + "的帖子，受到你这个记忆的启发: '" + m + "'"
  }

  /** The two kinds of topic line start alike and never coincide. */
  lemma {:induction false} TopicLinesDiffer(base: string)
    ensures IsPrefix("关于" + base + "的帖子，", PlainTopic(base))
    ensures forall m :: IsPrefix("关于" + base + "的帖子，", InspiredTopic(base, m))
    ensures forall m :: PlainTopic(base) != InspiredTopic(base, m)
  {
    var k := |"关于" + base + "的帖子，"|;
    assert PlainTopic(base)[k] == '展';
    forall m
      ensures IsPrefix("关于" + base + "的帖子，", InspiredTopic(base, m))
      ensures PlainTopic(base) != InspiredTopic(base, m)
    {
      assert InspiredTopic(base, m)[k] == '受';
    }
  }

  /** `select_post_topic`: a topic picked by `topicPick`, and, when a recent
      memory mentions an interest and the draw is below 0.7, one such memory
      picked by `memoryPick` as the inspiration. */
  function SelectPostTopic(a: Agent, topicPick: nat, inspireDraw: real, memoryPick: nat): (r: string)
    requires |a.topics| > 0
    ensures IsPrefix("关于" + a.topics[topicPick % |a.topics|] + "的帖子，", r)
    ensures var relevant := RelevantMemories(Last(a.memories, 10), a.topics);
            (|relevant| > 0 && inspireDraw < 0.7) <==>
              exists m :: m in Last(a.memories, 10) && MentionsTopic(m, a.topics) &&
                r == InspiredTopic(a.topics[topicPick % |a.topics|], m)
    ensures !(|RelevantMemories(Last(a.memories, 10), a.topics)| > 0 && inspireDraw < 0.7) ==>
              r == PlainTopic(a.topics[topicPick % |a.topics|])
  {
    var base := a.topics[topicPick % |a.topics|];
    var relevant := RelevantMemories(Last(a.memories, 10), a.topics);
    TopicLinesDiffer(base);
    if |relevant| > 0 && inspireDraw < 0.7 then
      var m := relevant[memoryPick % |relevant|];
      assert m in relevant;
      InspiredTopic(base, m)
    else
      assert forall m :: PlainTopic(base) != InspiredTopic(base, m);
      PlainTopic(base)
  }
}

=== FILE: community.dfy ===
/**
  The shared community store: posts keyed by id, comments keyed by id, and
  for every post the ids of its comments in the order they were added.

  Ids (`uuid4`) and creation times are parameters; times are integers that
  order the same way the ISO timestamps of the source do. `postOrder` keeps
  the insertion order of the posts dictionary, which `get_all_posts` starts
  from.
 */
module Communities {
  import opened Wrappers
  import opened Numbers
  import opened Sorting
  import opened Strings

  datatype Post = Post(postId: string, authorId: string, authorName: string,
                       content: string, timestamp: int, likes: int)

  datatype Comment = Comment(commentId: string, postId: string, authorId: string,
                             authorName: string, content: string, timestamp: int, likes: int)

  datatype Community = Community(posts: map<string, Post>, postOrder: seq<string>,
                                 comments: map<string, Comment>,
                                 postComments: map<string, seq<string>>)

  /** What the store's own operations maintain: the insertion order lists
      every post once, every post has a comment list, records carry their key. */
  ghost predicate Valid(c: Community)
  {
    && (forall i, j :: 0 <= i < j < |c.postOrder| ==> c.postOrder[i] != c.postOrder[j])
    && (forall id :: id in c.postOrder <==> id in c.posts)
    && c.postComments.Keys == c.posts.Keys
    && (forall id :: id in c.posts ==> c.posts[id].postId == id)
    && (forall id :: id in c.comments ==> c.comments[id].commentId == id)
  }

  const Empty := Community(map[], [], map[], map[])

  lemma {:induction false} EmptyValid()
    ensures Valid(Empty)
  {
  }

  /** Python truthiness of an optional string argument. */
  predicate Truthy(s: Option<string>)
  {
    s.Some? && s.value != ""
  }

  /** Neither map loses a key from `c` to `d`. */
  ghost predicate Grows(c: Community, d: Community)
  {
    c.posts.Keys <= d.posts.Keys && c.comments.Keys <= d.comments.Keys
  }

  // ---------------------------------------------------------------------
  // Posts

  /** `add_post`: stores a new post with no likes and an empty comment list. */
  function AddPost(c: Community, authorId: string, authorName: string, content: string,
                   freshId: string, now: int): (r: (Community, string))
    ensures r.1 == freshId
    ensures freshId in r.0.posts && freshId in r.0.postComments
    ensures r.0.posts[freshId] == Post(freshId, authorId, authorName, content, now, 0)
    ensures r.0.postComments[freshId] == []
    ensures r.0.posts.Keys == c.posts.Keys + {freshId}
    ensures forall id :: id in c.posts && id != freshId ==> r.0.posts[id] == c.posts[id]
    ensures forall id :: id in c.postComments && id != freshId ==>
              id in r.0.postComments && r.0.postComments[id] == c.postComments[id]
    ensures r.0.comments == c.comments
    ensures Grows(c, r.0)
    ensures Valid(c) ==> Valid(r.0)
  {
    var post := Post(freshId, authorId, authorName, content, now, 0);
    var order := if freshId in c.posts then c.postOrder else c.postOrder + [freshId];
    var d := c.(posts := c.posts[freshId := post], postOrder := order,
                postComments := c.postComments[freshId := []]);
    (d, freshId)
  }

  /** `get_post` */
  function GetPost(c: Community, postId: string): (r: Option<Post>)
    ensures r.Some? <==> postId in c.posts
    ensures r.Some? ==> r.value == c.posts[postId]
  {
    if postId in c.posts then Some(c.posts[postId]) else None
  }

  /** A post reads back as stored, with no likes. */
  lemma {:induction false} GetPostAfterAdd(c: Community, authorId: string, authorName: string, content: string,
                        freshId: string, now: int)
    ensures GetPost(AddPost(c, authorId, authorName, content, freshId, now).0, freshId)
            == Some(Post(freshId, authorId, authorName, content, now, 0))
  {
  }

  /** The stored posts in dictionary insertion order. */
  function PostsInOrder(order: seq<string>, posts: map<string, Post>): (r: seq<Post>)
    ensures forall p :: p in r ==> p in posts.Values
    ensures forall id :: id in order && id in posts ==> posts[id] in r
  {
    if |order| == 0 then []
    else
      var rest := PostsInOrder(order[1..], posts);
      if order[0] in posts then [posts[order[0]]] + rest else rest
  }

  /** The posts of one author, in order. */
  function ByAuthor(ps: seq<Post>, authorId: string): (r: seq<Post>)
    ensures forall p :: p in r <==> p in ps && p.authorId == authorId
  {
    if |ps| == 0 then []
    else
      var rest := ByAuthor(ps[1..], authorId);
      if ps[0].authorId == authorId then [ps[0]] + rest else rest
  }

  /** The posts `get_all_posts` ranks: all of them, or only the given
      author's when the author argument is truthy. */
  function Candidates(c: Community, authorId: Option<string>): seq<Post>
  {
    var all := PostsInOrder(c.postOrder, c.posts);
    if Truthy(authorId) then ByAuthor(all, authorId.value) else all
  }

  function PostTime(p: Post): int
  {
    p.timestamp
  }

  /** `get_all_posts`: the candidates, newest first, cut to `limit` only when
      `limit` is truthy (a Python slice, so a negative limit drops posts from
      the end). */
  function GetAllPosts(c: Community, limit: Option<int>, authorId: Option<string>): (r: seq<Post>)
    ensures Descending(r, PostTime)
    ensures forall p :: p in r ==> p in Candidates(c, authorId)
    ensures Truthy(authorId) ==> forall p :: p in r ==> p.authorId == authorId.value
    ensures multiset(r) <= multiset(Candidates(c, authorId))
    ensures (limit.None? || limit.value == 0) ==> multiset(r) == multiset(Candidates(c, authorId))
    ensures limit.Some? && limit.value > 0 ==> |r| == Min(limit.value, |Candidates(c, authorId)|)
    ensures limit.Some? && limit.value < 0 ==>
              |r| == Max(0, |Candidates(c, authorId)| + limit.value)
    ensures forall p, q :: p in r && q in Candidates(c, authorId) && q !in r ==>
              PostTime(q) <= PostTime(p)
  {
    var ranked := SortDesc(Candidates(c, authorId), PostTime);
    var n := if limit.Some? && limit.value != 0 then SliceIndex(limit.value, |ranked|) else |ranked|;
    var r := ranked[..n];
    assert n == |ranked| ==> r == ranked;
    TopOfSorted(Candidates(c, authorId), ranked, PostTime, n);
    assert forall p, q :: p in r && q in Candidates(c, authorId) && q !in r ==>
             PostTime(q) <= PostTime(p);
    r
  }

  /** `get_all_posts()` comes back empty exactly when nothing has been
      posted. */
  lemma {:induction false} NoPostsListed(c: Community)
    requires Valid(c)
    ensures GetAllPosts(c, None, None) == [] <==> |c.postOrder| == 0
  {
    var cand := Candidates(c, None);
    var r := GetAllPosts(c, None, None);
    assert multiset(r) == multiset(cand);
    if |c.postOrder| > 0 {
      var id := c.postOrder[0];
      assert c.posts[id] in cand;
      assert c.posts[id] in multiset(r);
    } else {
      assert cand == [];
      assert |multiset(r)| == 0;
    }
  }

  /** The ten newest posts are none exactly when nothing has been posted. */
  lemma {:induction false} NoRecentPosts(c: Community)
    requires Valid(c)
    ensures GetAllPosts(c, Some(10), None) == [] <==> |c.postOrder| == 0
  {
    var cand := Candidates(c, None);
    var all := GetAllPosts(c, None, None);
    NoPostsListed(c);
    assert |multiset(all)| == |multiset(cand)|;
    assert |GetAllPosts(c, Some(10), None)| == Min(10, |cand|);
  }

  /** Every stored post is listed when neither argument restricts the result. */
  lemma {:induction false} AllPostsListed(c: Community, postId: string)
    requires Valid(c) && postId in c.posts
    ensures c.posts[postId] in GetAllPosts(c, None, None)
  {
    assert c.posts[postId] in multiset(Candidates(c, None));
  }

  /** There is something to list exactly when some post is stored. */
  lemma {:induction false} AllPostsEmptyIff(c: Community)
    requires Valid(c)
    ensures GetAllPosts(c, None, None) == [] <==> |c.posts| == 0
  {
    if |c.posts| > 0 {
      var id :| id in c.posts;
      AllPostsListed(c, id);
    } else {
      assert c.posts.Values == {};
    }
  }

  // ---------------------------------------------------------------------
  // Comments

  /** `add_comment`: nothing happens for an unknown post; otherwise the
      comment is stored and its id appended to that post's list only. */
  function AddComment(c: Community, postId: string, authorId: string, authorName: string,
                      content: string, freshId: string, now: int): (r: (Community, Option<string>))
    requires Valid(c)
    ensures r.1.None? <==> postId !in c.posts
    ensures r.1.None? ==> r.0 == c
    ensures r.1.Some? ==> && r.1.value == freshId
                          && freshId in r.0.comments
                          && r.0.comments[freshId] == Comment(freshId, postId, authorId, authorName, content, now, 0)
                          && postId in r.0.postComments
                          && r.0.postComments[postId] == c.postComments[postId] + [freshId]
    ensures forall id :: id in c.comments && id != freshId ==>
              id in r.0.comments && r.0.comments[id] == c.comments[id]
    ensures forall id :: id in c.postComments && id != postId ==>
              id in r.0.postComments && r.0.postComments[id] == c.postComments[id]
    ensures r.0.posts == c.posts && r.0.postOrder == c.postOrder
    ensures Grows(c, r.0)
    ensures Valid(r.0)
  {
    if postId !in c.posts then (c, None)
    else
      var comment := Comment(freshId, postId, authorId, authorName, content, now, 0);
      var d := c.(comments := c.comments[freshId := comment],
                  postComments := c.postComments[postId := c.postComments[postId] + [freshId]]);
      (d, Some(freshId))
  }

  /** The comments a list of ids names, skipping ids with no stored comment. */
  function Indexed(ids: seq<string>, comments: map<string, Comment>): (r: seq<Comment>)
    ensures forall m :: m in r ==> m in comments.Values
    ensures forall id :: id in ids && id in comments ==> comments[id] in r
  {
    if |ids| == 0 then []
    else
      var rest := Indexed(ids[1..], comments);
      if ids[0] in comments then [comments[ids[0]]] + rest else rest
  }

  function CommentTime(m: Comment): int
  {
    m.timestamp
  }

  /** `get_post_comments`: nothing for an unknown post, otherwise its indexed
      comments, oldest first. */
  function GetPostComments(c: Community, postId: string): (r: seq<Comment>)
    ensures postId !in c.postComments ==> r == []
    ensures postId in c.postComments ==>
              multiset(r) == multiset(Indexed(c.postComments[postId], c.comments))
    ensures Ascending(r, CommentTime)
    ensures forall m :: m in r ==> m in c.comments.Values
  {
    if postId !in c.postComments then []
    else
      var r := SortAsc(Indexed(c.postComments[postId], c.comments), CommentTime);
      assert forall m :: m in r ==> m in multiset(Indexed(c.postComments[postId], c.comments));
      r
  }

  /** A comment that was added is listed under its post. */
  lemma {:induction false} CommentListedAfterAdd(c: Community, postId: string, authorId: string, authorName: string,
                              content: string, freshId: string, now: int)
    requires Valid(c) && postId in c.posts
    ensures var (d, id) := AddComment(c, postId, authorId, authorName, content, freshId, now);
            id == Some(freshId) && d.comments[freshId] in GetPostComments(d, postId)
  {
    var (d, _) := AddComment(c, postId, authorId, authorName, content, freshId, now);
    assert freshId in d.postComments[postId];
    assert d.comments[freshId] in multiset(Indexed(d.postComments[postId], d.comments));
  }

  // ---------------------------------------------------------------------
  // Likes

  /** `like_post`: one more like and the new count, or nothing for an
      unknown post. */
  function LikePost(c: Community, postId: string): (r: (Community, Option<int>))
    ensures postId !in c.posts ==> r.1.None? && r.0 == c
    ensures postId in c.posts ==> && r.1 == Some(c.posts[postId].likes + 1)
                                  && r.0.posts == c.posts[postId := c.posts[postId].(likes := c.posts[postId].likes + 1)]
                                  && r.0.comments == c.comments
                                  && r.0.postComments == c.postComments
                                  && r.0.postOrder == c.postOrder
    ensures Grows(c, r.0)
    ensures Valid(c) ==> Valid(r.0)
  {
    if postId in c.posts then
      var p := c.posts[postId];
      var likes := p.likes + 1;
      (c.(posts := c.posts[postId := p.(likes := likes)]), Some(likes))
    else (c, None)
  }

  /** `like_comment`: one more like and the new count, or nothing for an
      unknown comment. */
  function LikeComment(c: Community, commentId: string): (r: (Community, Option<int>))
    ensures commentId !in c.comments ==> r.1.None? && r.0 == c
    ensures commentId in c.comments ==>
              && r.1 == Some(c.comments[commentId].likes + 1)
              && r.0.comments == c.comments[commentId := c.comments[commentId].(likes := c.comments[commentId].likes + 1)]
              && r.0.posts == c.posts
              && r.0.postComments == c.postComments
              && r.0.postOrder == c.postOrder
    ensures Grows(c, r.0)
    ensures Valid(c) ==> Valid(r.0)
  {
    if commentId in c.comments then
      var m := c.comments[commentId];
      var likes := m.likes + 1;
      (c.(comments := c.comments[commentId := m.(likes := likes)]), Some(likes))
    else (c, None)
  }

  /** Liking a post twice adds two likes. */
  lemma {:induction false} LikePostTwice(c: Community, postId: string)
    requires postId in c.posts
    ensures LikePost(LikePost(c, postId).0, postId).1 == Some(c.posts[postId].likes + 2)
  {
  }
}

=== FILE: interactions.dfy ===
/**
  The interaction ledger: for every initiator, how often it interacted with
  each target (in the order the targets first appeared, as the nested
  dictionary keeps them) and when it last did so. The append-only event log
  file is not part of this model.
 */
module Interactions {
  import opened Wrappers
  import opened Numbers
  import opened Sorting
  import opened Strings

  datatype Tally = Tally(target: string, count: int)

  datatype Ledger = Ledger(interactions: map<string, seq<Tally>>,
                           lastInteraction: map<string, map<string, int>>)

  const Empty := Ledger(map[], map[])

  /** The targets of a tally list, in order. */
  function Targets(ts: seq<Tally>): (r: seq<string>)
    ensures |r| == |ts|
    ensures forall i :: 0 <= i < |ts| ==> r[i] == ts[i].target
  {
    if |ts| == 0 then [] else [ts[0].target] + Targets(ts[1..])
  }

  predicate DistinctTargets(ts: seq<Tally>)
  {
    forall i, j :: 0 <= i < j < |ts| ==> ts[i].target != ts[j].target
  }

  predicate Positive(ts: seq<Tally>)
  {
    forall i :: 0 <= i < |ts| ==> ts[i].count >= 1
  }

  /** Every target appears once per initiator and every stored count is at
      least one. */
  ghost predicate Valid(l: Ledger)
  {
    forall a :: a in l.interactions ==>
      DistinctTargets(l.interactions[a]) && Positive(l.interactions[a])
  }

  /** The count stored for `b`, or 0 when `b` has none. */
  function Count(ts: seq<Tally>, b: string): (n: int)
    ensures b !in Targets(ts) ==> n == 0
    ensures Positive(ts) && b in Targets(ts) ==> n >= 1
  {
    if |ts| == 0 then 0
    else if ts[0].target == b then ts[0].count
    else
      assert Targets(ts) == [ts[0].target] + Targets(ts[1..]);
      Count(ts[1..], b)
  }

  /** Sum of all counts. */
  function Total(ts: seq<Tally>): int
  {
    if |ts| == 0 then 0 else ts[0].count + Total(ts[1..])
  }

  /** The tally after one more interaction with `b`: its count goes up by
      one, or it is appended with count one; the other targets keep their
      place. */
  function Bump(ts: seq<Tally>, b: string): (r: seq<Tally>)
    ensures Targets(r) == if b in Targets(ts) then Targets(ts) else Targets(ts) + [b]
    ensures Positive(ts) ==> Positive(r)
  {
    if |ts| == 0 then
      [Tally(b, 1)]
    else if ts[0].target == b then
      var r := [ts[0].(count := ts[0].count + 1)] + ts[1..];
      assert r[1..] == ts[1..];
      r
    else
      var rest := Bump(ts[1..], b);
      var r := [ts[0]] + rest;
      assert r[1..] == rest;
      assert Targets(ts) == [ts[0].target] + Targets(ts[1..]);
      assert Targets(r) == [ts[0].target] + Targets(rest);
      r
  }

  /** Bumping `b` adds one to its count and to no other. */
  lemma {:induction false} BumpCount(ts: seq<Tally>, b: string, c: string)
    ensures Count(Bump(ts, b), c) == Count(ts, c) + (if c == b then 1 else 0)
    decreases |ts|
  {
    if |ts| > 0 && ts[0].target != b {
      BumpCount(ts[1..], b, c);
      assert Bump(ts, b)[1..] == Bump(ts[1..], b);
    } else if |ts| > 0 {
      assert Bump(ts, b)[1..] == ts[1..];
    }
  }

  /** Bumping adds one to the total. */
  lemma {:induction false} BumpTotal(ts: seq<Tally>, b: string)
    ensures Total(Bump(ts, b)) == Total(ts) + 1
    decreases |ts|
  {
    if |ts| > 0 && ts[0].target != b {
      BumpTotal(ts[1..], b);
      assert Bump(ts, b)[1..] == Bump(ts[1..], b);
    } else if |ts| > 0 {
      assert Bump(ts, b)[1..] == ts[1..];
    }
  }

  /** A bumped tally list still names every target once. */
  lemma {:induction false} BumpDistinct(ts: seq<Tally>, b: string)
    ensures DistinctTargets(ts) ==> DistinctTargets(Bump(ts, b))
  {
    if DistinctTargets(ts) {
      var r := Bump(ts, b);
      forall i, j | 0 <= i < j < |r|
        ensures r[i].target != r[j].target
      {
        assert Targets(r)[i] == r[i].target && Targets(r)[j] == r[j].target;
        if b !in Targets(ts) && j == |ts| {
          assert Targets(ts)[i] == ts[i].target;
        }
      }
    }
  }

  /** The targets an initiator interacted with, or none. */
  function TalliesOf(l: Ledger, a: string): seq<Tally>
  {
    if a in l.interactions then l.interactions[a] else []
  }

  /** `record_interaction`, counters and timestamp only: the directed pair
      `(a, b)` gains one interaction and its last time becomes `now`. */
  function RecordInteraction(l: Ledger, a: string, b: string, now: int): (r: Ledger)
    ensures a in r.interactions && a in r.lastInteraction
    ensures r.interactions == l.interactions[a := Bump(TalliesOf(l, a), b)]
    ensures b in r.lastInteraction[a] && r.lastInteraction[a][b] == now
    ensures forall x :: x in l.lastInteraction && x != a ==>
              x in r.lastInteraction && r.lastInteraction[x] == l.lastInteraction[x]
    ensures forall y :: a in l.lastInteraction && y in l.lastInteraction[a] && y != b ==>
              y in r.lastInteraction[a] && r.lastInteraction[a][y] == l.lastInteraction[a][y]
    ensures Valid(l) ==> Valid(r)
  {
    BumpDistinct(TalliesOf(l, a), b);
    var times := if a in l.lastInteraction then l.lastInteraction[a] else map[];
    Ledger(l.interactions[a := Bump(TalliesOf(l, a), b)],
           l.lastInteraction[a := times[b := now]])
  }

  /** `get_interaction_count`: 0 for a pair never recorded. */
  function GetInteractionCount(l: Ledger, a: string, b: string): (n: int)
    ensures a !in l.interactions ==> n == 0
    ensures Valid(l) ==> (n >= 1 <==> a in l.interactions && b in Targets(l.interactions[a]))
    ensures Valid(l) ==> n >= 0
  {
    if a !in l.interactions then 0 else Count(l.interactions[a], b)
  }

  /** `get_last_interaction_time`: nothing for a pair never recorded. */
  function GetLastInteractionTime(l: Ledger, a: string, b: string): (t: Option<int>)
    ensures t.Some? <==> a in l.lastInteraction && b in l.lastInteraction[a]
    ensures t.Some? ==> t.value == l.lastInteraction[a][b]
  {
    if a !in l.lastInteraction || b !in l.lastInteraction[a] then None
    else Some(l.lastInteraction[a][b])
  }

  /** Recording `(a, b)` raises exactly that directed pair by one; every
      other pair, `(b, a)` included, keeps its count. */
  lemma {:induction false} RecordCounts(l: Ledger, a: string, b: string, now: int, x: string, y: string)
    ensures var r := RecordInteraction(l, a, b, now);
            GetInteractionCount(r, x, y) ==
              GetInteractionCount(l, x, y) + (if x == a && y == b then 1 else 0)
  {
    BumpCount(TalliesOf(l, a), b, y);
  }

  /** After recording `(a, b)` its last time is known and is `now`. */
  lemma {:induction false} RecordTime(l: Ledger, a: string, b: string, now: int)
    ensures GetLastInteractionTime(RecordInteraction(l, a, b, now), a, b) == Some(now)
  {
  }

  function TallyCount(t: Tally): int
  {
    t.count
  }

  /** `get_most_interacted`: at most `limit` targets (a Python slice bound),
      most frequent first, equal counts in the order the targets first
      appeared. */
  function GetMostInteracted(l: Ledger, a: string, limit: int): (r: seq<Tally>)
    ensures a !in l.interactions ==> r == []
    ensures Descending(r, TallyCount)
    ensures limit >= 0 ==> |r| == Min(limit, |TalliesOf(l, a)|)
    ensures forall t :: t in r ==> t in TalliesOf(l, a)
    ensures forall t, u :: t in r && u in TalliesOf(l, a) && u !in r ==> TallyCount(u) <= TallyCount(t)
  {
    if a !in l.interactions then []
    else
      var ranked := SortDesc(l.interactions[a], TallyCount);
      var n := SliceIndex(limit, |ranked|);
      TopOfSorted(l.interactions[a], ranked, TallyCount, n);
      ranked[..n]
  }

  lemma {:induction false} WithKeyPrefix<T>(s: seq<T>, key: T -> int, v: int, n: nat)
    requires n <= |s|
    ensures IsPrefix(WithKey(s[..n], key, v), WithKey(s, key, v))
    decreases n
  {
    if n > 0 {
      WithKeyPrefix(s[1..], key, v, n - 1);
      assert s[..n][1..] == s[1..][..n - 1];
    }
  }

  /** Ties keep insertion order: among the returned targets with any one
      count, the order is the order in which those targets first appeared. */
  lemma {:induction false} MostInteractedTiesInOrder(l: Ledger, a: string, limit: int, v: int)
    requires a in l.interactions
    ensures IsPrefix(WithKey(GetMostInteracted(l, a, limit), TallyCount, v),
                     WithKey(l.interactions[a], TallyCount, v))
  {
    var ranked := SortDesc(l.interactions[a], TallyCount);
    var n := SliceIndex(limit, |ranked|);
    WithKeyPrefix(ranked, TallyCount, v, n);
    SortDescStable(l.interactions[a], TallyCount, v);
  }

  datatype Summary = Summary(totalInteractions: int, uniqueAgents: int,
                             mostInteracted: Option<seq<Tally>>)

  /** `get_interaction_summary`, with the top three targets. */
  function GetInteractionSummary(l: Ledger, a: string): (s: Summary)
    ensures a !in l.interactions ==> s == Summary(0, 0, None)
    ensures a in l.interactions ==>
              && s.totalInteractions == Total(l.interactions[a])
              && s.uniqueAgents == |l.interactions[a]|
              && s.mostInteracted == Some(GetMostInteracted(l, a, 3))
  {
    if a !in l.interactions then Summary(0, 0, None)
    else
      var ts := l.interactions[a];
      Summary(Total(ts), |ts|, Some(GetMostInteracted(l, a, 3)))
  }

  /** Recording one interaction raises the initiator's total by one, and the
      number of distinct targets by one exactly when the target is new. */
  lemma {:induction false} RecordSummary(l: Ledger, a: string, b: string, now: int)
    ensures var before := GetInteractionSummary(l, a);
            var after := GetInteractionSummary(RecordInteraction(l, a, b, now), a);
            && after.totalInteractions == before.totalInteractions + 1
            && after.uniqueAgents == before.uniqueAgents + (if b in Targets(TalliesOf(l, a)) then 0 else 1)
  {
    BumpTotal(TalliesOf(l, a), b);
  }

  /** In a valid ledger the summary's total is at least its number of
      distinct targets: every target was interacted with at least once. */
  lemma {:induction false} TotalAtLeastTargets(ts: seq<Tally>)
    requires Positive(ts)
    ensures Total(ts) >= |ts|
    decreases |ts|
  {
    if |ts| > 0 {
      assert Positive(ts[1..]) by {
        forall i | 0 <= i < |ts| - 1 ensures ts[1..][i].count >= 1 {
          assert ts[1..][i] == ts[i + 1];
        }
      }
      TotalAtLeastTargets(ts[1..]);
    }
  }
}

=== FILE: monitor.dfy ===
/**
  The activity log behind the console monitor, and the sleep/wake edge test
  the monitor hooks into the scheduler's transition check.

  Entries reach the log through a queue drained by a thread; here an entry
  is added as soon as it is logged. The free-form details of an entry are
  not modelled.
 */
module Monitor {
  import opened Wrappers
  import opened Numbers
  import opened Strings
  import opened Schedule
  import opened Agents

  datatype Entry = Entry(timestamp: int, agentName: string, actionType: string, message: string)

  datatype ActivityLog = ActivityLog(entries: seq<Entry>, maxEntries: int)

  const DefaultMaxEntries := 100

  const EmptyLog := ActivityLog([], DefaultMaxEntries)

  /** The newest `n` items of `s`, in order. */
  function Newest<T>(s: seq<T>, n: nat): (r: seq<T>)
    ensures |r| == Min(|s|, n)
    ensures IsSuffix(r, s)
  {
    s[|s| - Min(|s|, n)..]
  }

  /** `_add_entry`: append, then drop the oldest entry while there are more
      than `maxEntries`. A negative bound would pop from an empty list. */
  method AddEntry(log: ActivityLog, e: Entry) returns (r: ActivityLog)
    requires log.maxEntries >= 0
    ensures r.maxEntries == log.maxEntries
    ensures r.entries == Newest(log.entries + [e], log.maxEntries)
  {
    var es := log.entries + [e];
    ghost var all := es;
    while |es| > log.maxEntries
      invariant IsSuffix(es, all)
      invariant |es| == |all| || |es| >= log.maxEntries
      decreases |es|
    {
      es := es[1..];
    }
    return ActivityLog(es, log.maxEntries);
  }

  /** The log keeps the newest entry as long as it keeps any. */
  lemma {:induction false} NewestKeepsLast(es: seq<Entry>, e: Entry, m: nat)
    requires m >= 1
    ensures var kept := Newest(es + [e], m);
            |kept| >= 1 && kept[|kept| - 1] == e && |kept| <= m
  {
  }

  /** The entries a getter returns: `xs[-count:]`, or nothing for an empty
      list. */
  function Recent(xs: seq<Entry>, count: int): (r: seq<Entry>)
    ensures count >= 1 ==> r == Newest(xs, count)
    ensures count == 0 ==> r == xs
    ensures IsSuffix(r, xs)
  {
    if |xs| > 0 then Last(xs, count) else []
  }

  /** `get_recent` */
  function GetRecent(log: ActivityLog, count: int): (r: seq<Entry>)
    ensures count >= 1 ==> |r| == Min(count, |log.entries|)
    ensures count == 0 ==> r == log.entries
    ensures IsSuffix(r, log.entries)
  {
    Recent(log.entries, count)
  }

  /** The entries whose `field` is `v`, in log order. */
  function Matching(es: seq<Entry>, field: Entry -> string, v: string): (r: seq<Entry>)
    ensures forall x :: x in r <==> x in es && field(x) == v
    ensures |r| <= |es|
  {
    if |es| == 0 then []
    else (if field(es[0]) == v then [es[0]] else []) + Matching(es[1..], field, v)
  }

  /** Filtering a log split in two filters each part and keeps them in
      order, so the matching entries stay in log order. */
  lemma {:induction false} MatchingAppend(a: seq<Entry>, b: seq<Entry>, field: Entry -> string, v: string)
    ensures Matching(a + b, field, v) == Matching(a, field, v) + Matching(b, field, v)
    decreases |a|
  {
    if |a| == 0 {
      assert a + b == b;
    } else {
      assert (a + b)[0] == a[0];
      assert (a + b)[1..] == a[1..] + b;
      MatchingAppend(a[1..], b, field, v);
    }
  }

  function AgentOf(e: Entry): string
  {
    e.agentName
  }

  function ActionOf(e: Entry): string
  {
    e.actionType
  }

  /** `get_by_agent` */
  function GetByAgent(log: ActivityLog, agentName: string, count: int): (r: seq<Entry>)
    ensures forall x :: x in r ==> x in log.entries && x.agentName == agentName
    ensures IsSuffix(r, Matching(log.entries, AgentOf, agentName))
    ensures count >= 1 ==> |r| == Min(count, |Matching(log.entries, AgentOf, agentName)|)
  {
    var r := Recent(Matching(log.entries, AgentOf, agentName), count);
    assert forall x :: x in r ==> x in Matching(log.entries, AgentOf, agentName);
    r
  }

  /** `get_by_action` */
  function GetByAction(log: ActivityLog, actionType: string, count: int): (r: seq<Entry>)
    ensures forall x :: x in r ==> x in log.entries && x.actionType == actionType
    ensures IsSuffix(r, Matching(log.entries, ActionOf, actionType))
    ensures count >= 1 ==> |r| == Min(count, |Matching(log.entries, ActionOf, actionType)|)
  {
    var r := Recent(Matching(log.entries, ActionOf, actionType), count);
    assert forall x :: x in r ==> x in Matching(log.entries, ActionOf, actionType);
    r
  }

  // ---------------------------------------------------------------------
  // Sleep and wake edges

  /** The hour before `hour` on the clock. */
  function PrevHour(hour: int): (p: int)
    ensures 0 < hour < HoursPerDay ==> p == hour - 1
    ensures hour == 0 ==> p == HoursPerDay - 1
  {
    if hour > 0 then hour - 1 else 23
  }

  datatype Edge = FellAsleep | WokeUp | NoEdge

  /** The hook's test: asleep now but not in the previous hour, or the
      reverse. */
  function SleepWakeEdge(a: Agent, hour: int): (e: Edge)
    ensures e == FellAsleep <==> !IsAsleep(a, PrevHour(hour)) && IsAsleep(a, hour)
    ensures e == WokeUp <==> IsAsleep(a, PrevHour(hour)) && !IsAsleep(a, hour)
  {
    var was := IsAsleep(a, PrevHour(hour));
    var now := IsAsleep(a, hour);
    if !was && now then FellAsleep
    else if was && !now then WokeUp
    else NoEdge
  }

  /** For a persona that is not forced awake and whose window is not empty,
      the log shows falling asleep exactly at the window's start and waking
      exactly at its end. */
  lemma {:induction false} EdgesAtWindowBounds(a: Agent, hour: int)
    requires !a.forceActive
    requires 0 <= a.sleepStart < HoursPerDay && 0 <= a.sleepEnd < HoursPerDay
    requires a.sleepStart != a.sleepEnd
    requires 0 <= hour < HoursPerDay
    ensures SleepWakeEdge(a, hour) == FellAsleep <==> hour == a.sleepStart
    ensures SleepWakeEdge(a, hour) == WokeUp <==> hour == a.sleepEnd
  {
  }

  /** A persona forced awake never shows an edge. */
  lemma {:induction false} ForcedNoEdges(a: Agent, hour: int)
    requires a.forceActive
    ensures SleepWakeEdge(a, hour) == NoEdge
  {
  }

  /** The entry the hook logs for an edge, if any. */
  function EdgeEntry(a: Agent, hour: int, now: int): (r: Option<Entry>)
    ensures r.Some? <==> SleepWakeEdge(a, hour) != NoEdge
    ensures r.Some? ==> r.value.agentName == a.name && r.value.timestamp == now
    ensures r.Some? ==> (r.value.actionType == "SLEEP" <==> SleepWakeEdge(a, hour) == FellAsleep)
  {
    match SleepWakeEdge(a, hour)
    case FellAsleep => Some(Entry(now, a.name, "SLEEP", "开始睡眠"))
    case WokeUp => Some(Entry(now, a.name, "WAKE", "醒来"))
    case NoEdge => None
  }
}

=== FILE: numbers.dfy ===
/** Integer helpers shared by the other modules. */
module Numbers {

  function Min(a: int, b: int): int
  {
    if a <= b then a else b
  }

  function Max(a: int, b: int): int
  {
    if a >= b then a else b
  }
}

=== FILE: schedule.dfy ===
/**
  The daily schedule of a persona: the sleep window `[sleepStart, sleepEnd)`,
  which wraps past midnight when the start is later than the end, and the
  active hours drawn each day from the hours outside it.

  `random.randint` and `random.sample` become explicit draws: a count draw
  mapped into `[min, max]`, and one pick per sampled hour that selects an
  index of the hours not yet taken.
 */
module Schedule {
  import opened Numbers

  const HoursPerDay := 24

  predicate StrictlyIncreasing(s: seq<int>)
  {
    forall i, j :: 0 <= i < j < |s| ==> s[i] < s[j]
  }

  predicate Distinct<T(==)>(s: seq<T>)
  {
    forall i, j :: 0 <= i < j < |s| ==> s[i] != s[j]
  }

  /** `list(range(lo, hi))` */
  function Range(lo: int, hi: int): (r: seq<int>)
    ensures |r| == if lo < hi then hi - lo else 0
    ensures forall i :: 0 <= i < |r| ==> r[i] == lo + i
    ensures forall h :: h in r <==> lo <= h < hi
    decreases hi - lo
  {
    if lo >= hi then [] else [lo] + Range(lo + 1, hi)
  }

  /** The sleep list built by `_generate_active_hours`: one range when the
      window does not wrap, the evening part and the morning part when it does. */
  function SleepHours(sleepStart: int, sleepEnd: int): (r: seq<int>)
    ensures sleepStart <= sleepEnd ==> forall h :: h in r <==> sleepStart <= h < sleepEnd
    ensures sleepStart > sleepEnd ==>
              forall h :: h in r <==> (sleepStart <= h < HoursPerDay || 0 <= h < sleepEnd)
  {
    if sleepStart <= sleepEnd then Range(sleepStart, sleepEnd)
    else Range(sleepStart, HoursPerDay) + Range(0, sleepEnd)
  }

  /** The half-open, wrap-aware range test of `is_asleep`, before the
      force-active override. */
  predicate InSleepWindow(sleepStart: int, sleepEnd: int, hour: int)
  {
    if sleepStart <= sleepEnd then sleepStart <= hour < sleepEnd
    else hour >= sleepStart || hour < sleepEnd
  }

  /** For every hour of the day the range test and the sleep list agree,
      whether or not the window wraps and whatever the configured bounds. */
  lemma {:induction false} InSleepWindowIffSleepHour(sleepStart: int, sleepEnd: int, hour: int)
    requires 0 <= hour < HoursPerDay
    ensures InSleepWindow(sleepStart, sleepEnd, hour) <==> hour in SleepHours(sleepStart, sleepEnd)
  {
  }

  /** The range test is half-open: the hour the window ends is never in it. */
  lemma {:induction false} SleepEndNotInWindow(sleepStart: int, sleepEnd: int)
    ensures !InSleepWindow(sleepStart, sleepEnd, sleepEnd)
  {
  }

  /** The elements of `xs` whose membership in `ys` is `inside`, in order. */
  function Select(xs: seq<int>, ys: seq<int>, inside: bool): (r: seq<int>)
    ensures forall h :: h in r <==> h in xs && (h in ys <==> inside)
    ensures StrictlyIncreasing(xs) ==> StrictlyIncreasing(r)
    ensures |r| <= |xs|
  {
    if |xs| == 0 then []
    else
      var rest := Select(xs[1..], ys, inside);
      if (xs[0] in ys) == inside then
        assert StrictlyIncreasing(xs) ==> forall h :: h in rest ==> xs[0] < h by {
          if StrictlyIncreasing(xs) {
            forall h | h in rest ensures xs[0] < h {
              var k :| 0 <= k < |xs| - 1 && xs[1..][k] == h;
              assert xs[k + 1] == h;
            }
          }
        }
        PrependIncreasing(xs[0], rest);
        [xs[0]] + rest
      else rest
  }

  lemma {:induction false} PrependIncreasing(x: int, s: seq<int>)
    ensures StrictlyIncreasing(s) && (forall h :: h in s ==> x < h) ==> StrictlyIncreasing([x] + s)
  {
    if StrictlyIncreasing(s) && (forall h :: h in s ==> x < h) {
      var r := [x] + s;
      forall i, j | 0 <= i < j < |r| ensures r[i] < r[j] {
        assert r[j] == s[j - 1];
        if i > 0 { assert r[i] == s[i - 1]; } else { assert r[j] in s; }
      }
    }
  }

  /** `[h for h in all_hours if h not in sleep_hours]` */
  function AvailableHours(sleepStart: int, sleepEnd: int): (r: seq<int>)
    ensures StrictlyIncreasing(r)
    ensures forall h :: h in r <==> 0 <= h < HoursPerDay && !InSleepWindow(sleepStart, sleepEnd, h)
  {
    var r := Select(Range(0, HoursPerDay), SleepHours(sleepStart, sleepEnd), false);
    forall h | 0 <= h < HoursPerDay
      ensures InSleepWindow(sleepStart, sleepEnd, h) <==> h in SleepHours(sleepStart, sleepEnd)
    {
      InSleepWindowIffSleepHour(sleepStart, sleepEnd, h);
    }
    r
  }

  /** `random.randint(lo, hi)`, driven by an arbitrary natural draw. */
  function RandInt(lo: int, hi: int, draw: nat): (n: int)
    requires lo <= hi
    ensures lo <= n <= hi
  {
    lo + draw % (hi - lo + 1)
  }

  /** `xs` without its element at index `i`. */
  function RemoveAt(xs: seq<int>, i: nat): (r: seq<int>)
    requires i < |xs|
    ensures |r| == |xs| - 1
    ensures Distinct(xs) ==> Distinct(r) && forall h :: h in r <==> h in xs && h != xs[i]
  {
    var r := xs[..i] + xs[i + 1..];
    assert forall j :: 0 <= j < |r| ==> r[j] == if j < i then xs[j] else xs[j + 1];
    r
  }

  /** `random.sample(pool, k)`: each pick selects one of the hours not yet
      taken (an exhausted pick list selects the first). */
  function Sample(pool: seq<int>, k: nat, picks: seq<nat>): (r: seq<int>)
    requires k <= |pool|
    requires Distinct(pool)
    ensures |r| == k
    ensures Distinct(r)
    ensures forall h :: h in r ==> h in pool
    decreases k
  {
    if k == 0 then []
    else
      var i := (if |picks| > 0 then picks[0] else 0) % |pool|;
      var remaining := RemoveAt(pool, i);
      var rest := Sample(remaining, k - 1, if |picks| > 0 then picks[1..] else []);
      assert pool[i] !in rest;
      var r := [pool[i]] + rest;
      assert forall j :: 1 <= j < |r| ==> r[j] == rest[j - 1];
      r
  }

  lemma {:induction false} DistinctCardinality(s: seq<int>)
    requires Distinct(s)
    ensures |set h | h in s| == |s|
    decreases |s|
  {
    if |s| > 0 {
      DistinctCardinality(s[1..]);
      assert (set h | h in s) == {s[0]} + (set h | h in s[1..]);
      assert s[0] !in (set h | h in s[1..]);
    } else {
      assert (set h | h in s) == {};
    }
  }

  /** Two duplicate-free lists with the same elements have the same length. */
  lemma {:induction false} SameElementsSameLength(a: seq<int>, b: seq<int>)
    requires Distinct(a) && Distinct(b)
    requires forall h :: h in a <==> h in b
    ensures |a| == |b|
  {
    DistinctCardinality(a);
    DistinctCardinality(b);
    assert (set h | h in a) == (set h | h in b);
  }

  /** `sorted(hours)` for duplicate-free hours of the day: the hours of
      `0..23` that are in the list, in ascending order. */
  function SortHours(hours: seq<int>): (r: seq<int>)
    requires Distinct(hours)
    requires forall h :: h in hours ==> 0 <= h < HoursPerDay
    ensures StrictlyIncreasing(r)
    ensures forall h :: h in r <==> h in hours
    ensures |r| == |hours|
  {
    var r := Select(Range(0, HoursPerDay), hours, true);
    assert Distinct(r);
    SameElementsSameLength(r, hours);
    r
  }

  /** The draws `_generate_active_hours` makes: one for the count, one per
      sampled hour. */
  datatype ScheduleDraw = ScheduleDraw(count: nat, picks: seq<nat>)

  /** `_generate_active_hours`: a sorted sample of `min(n, |available|)`
      available hours, with `n` drawn in `[minHours, maxHours]`. */
  function GenerateActiveHours(sleepStart: int, sleepEnd: int, minHours: int, maxHours: int,
                               draw: ScheduleDraw): (r: seq<int>)
    requires 0 <= minHours <= maxHours
    ensures StrictlyIncreasing(r)
    ensures forall h :: h in r ==> 0 <= h < HoursPerDay
    ensures forall h :: h in r ==> !InSleepWindow(sleepStart, sleepEnd, h)
    ensures forall h :: h in r ==> h !in SleepHours(sleepStart, sleepEnd)
    ensures var n := RandInt(minHours, maxHours, draw.count);
            minHours <= n <= maxHours && |r| == Min(n, |AvailableHours(sleepStart, sleepEnd)|)
  {
    var available := AvailableHours(sleepStart, sleepEnd);
    var n := RandInt(minHours, maxHours, draw.count);
    assert Distinct(available);
    var picked := Sample(available, Min(n, |available|), draw.picks);
    var r := SortHours(picked);
    forall h | h in r
      ensures h !in SleepHours(sleepStart, sleepEnd)
    {
      InSleepWindowIffSleepHour(sleepStart, sleepEnd, h);
    }
    r
  }

  /** With the default window from 1 to 7 o'clock, the hours from 1 to 6 are
      never drawn, whatever the draws. */
  lemma {:induction false} DefaultWindowExcluded(draw: ScheduleDraw, h: int)
    requires 1 <= h < 7
    ensures h !in GenerateActiveHours(1, 7, 3, 8, draw)
  {
  }
}

=== FILE: scheduler.dfy ===
/**
  One pass of the scheduler's loop: detect a change of hour (resetting every
  persona's day at midnight and running the wake-hour sleep-learning), then
  pick one active persona and give it one task.

  The clock hour, the random draws, the model replies, fresh ids and the
  time are inputs of the step. The loop itself, its thread and its
  one-minute sleep, the console output and the saving of persona state are
  not part of this model.
 */
module Scheduler {
  import opened Wrappers
  import opened Schedule
  import opened Communities
  import opened Interactions
  import opened Agents

  /** The scheduler's state: the personas (with the insertion order of their
      dictionary), the community, the interaction ledger and the hour the
      loop last saw. */
  datatype World = World(agents: map<string, Agent>, agentOrder: seq<string>,
                         community: Community, ledger: Ledger, lastHour: int)

  /** Every persona is consistent and has an interest topic to post about. */
  ghost predicate AgentsValid(agents: map<string, Agent>)
  {
    forall id :: id in agents ==> Agents.Valid(agents[id]) && |agents[id].topics| > 0
  }

  ghost predicate WorldValid(w: World)
  {
    && Distinct(w.agentOrder)
    && (forall id :: id in w.agentOrder <==> id in w.agents)
    && AgentsValid(w.agents)
    && Communities.Valid(w.community)
    && Interactions.Valid(w.ledger)
  }

  /** The constructor; the loop starts with no hour seen. */
  function NewWorld(agents: map<string, Agent>, agentOrder: seq<string>,
                    community: Community, ledger: Ledger): (w: World)
    ensures w.lastHour == -1
    ensures w.agents == agents && w.community == community && w.ledger == ledger
  {
    World(agents, agentOrder, community, ledger, -1)
  }

  /** The draw for the `i`-th persona of a reset; missing draws count as 0. */
  function DrawAt(draws: seq<ScheduleDraw>, i: nat): ScheduleDraw
  {
    if i < |draws| then draws[i] else ScheduleDraw(0, [])
  }

  /** `_reset_daily_schedules`: every persona, in order, draws a new day. */
  function ResetAll(agents: map<string, Agent>, order: seq<string>, cfg: Config,
                    draws: seq<ScheduleDraw>): (r: map<string, Agent>)
    requires ValidConfig(cfg)
    ensures r.Keys == agents.Keys
    ensures forall id :: id in agents ==> r[id] == agents[id].(activeHours := r[id].activeHours)
    ensures forall id :: id in agents && id !in order ==> r[id] == agents[id]
    ensures AgentsValid(agents) ==> AgentsValid(r)
    decreases |order|
  {
    if |order| == 0 then agents
    else
      var next := ResetOne(agents, order[0], cfg, DrawAt(draws, 0));
      ResetAll(next, order[1..], cfg, if |draws| > 0 then draws[1..] else [])
  }

  /** One persona, if present, draws a new day; the others are untouched. */
  function ResetOne(agents: map<string, Agent>, id: string, cfg: Config, draw: ScheduleDraw): (r: map<string, Agent>)
    requires ValidConfig(cfg)
    ensures r.Keys == agents.Keys
    ensures forall x :: x in agents ==> r[x] == agents[x].(activeHours := r[x].activeHours)
    ensures forall x :: x in agents && x != id ==> r[x] == agents[x]
    ensures id in agents ==>
              r[id].activeHours == GenerateActiveHours(agents[id].sleepStart, agents[id].sleepEnd,
                                                       cfg.activeHoursMin, cfg.activeHoursMax, draw)
    ensures AgentsValid(agents) ==> AgentsValid(r)
  {
    if id in agents then agents[id := ResetDailySchedule(agents[id], cfg, draw)] else agents
  }

  /** The `i`-th persona of the order gets the day drawn by the `i`-th draw,
      as long as no persona appears twice. */
  lemma {:induction false} ResetAllAt(agents: map<string, Agent>, order: seq<string>, cfg: Config,
                                      draws: seq<ScheduleDraw>, i: nat)
    requires ValidConfig(cfg) && Distinct(order)
    requires i < |order| && order[i] in agents
    ensures ResetAll(agents, order, cfg, draws)[order[i]].activeHours ==
              GenerateActiveHours(agents[order[i]].sleepStart, agents[order[i]].sleepEnd,
                                  cfg.activeHoursMin, cfg.activeHoursMax, DrawAt(draws, i))
    decreases |order|
  {
    var id := order[0];
    var next := ResetOne(agents, id, cfg, DrawAt(draws, 0));
    var rest := if |draws| > 0 then draws[1..] else [];
    assert ResetAll(agents, order, cfg, draws) == ResetAll(next, order[1..], cfg, rest);
    if i == 0 {
      assert id !in order[1..];
    } else {
      assert order[1..][i - 1] == order[i];
      assert order[i] != id;
      assert DrawAt(rest, i - 1) == DrawAt(draws, i);
      ResetAllAt(next, order[1..], cfg, rest, i - 1);
    }
  }

  /** The wake part of `_check_sleep_wake_transitions`: every persona whose
      window ends at this hour runs sleep-learning. The half-open window
      makes each of those calls a no-op, so nothing changes. */
  function WakeAll(agents: map<string, Agent>, order: seq<string>, hour: int,
                   reply: Option<string>): (r: map<string, Agent>)
    ensures r == agents
    decreases |order|
  {
    if |order| == 0 then agents
    else
      var id := order[0];
      if id in agents && agents[id].sleepEnd == hour then
        NoLearningAtWake(agents[id], reply);
        var (b, _) := ProcessSleepLearning(agents[id], hour, reply);
        assert agents[id := b] == agents;
        WakeAll(agents[id := b], order[1..], hour, reply)
      else WakeAll(agents, order[1..], hour, reply)
  }

  /** The hour-change part of a pass: on a new hour, reset at midnight, run
      the transitions and remember the hour. */
  function Transitions(w: World, cfg: Config, hour: int, resetDraws: seq<ScheduleDraw>,
                       wakeReply: Option<string>): (r: World)
    requires ValidConfig(cfg)
    ensures r.lastHour == hour
    ensures hour == w.lastHour ==> r == w
    ensures hour != w.lastHour && hour != 0 ==> r == w.(lastHour := hour)
    ensures hour != w.lastHour && hour == 0 ==>
              r == w.(agents := ResetAll(w.agents, w.agentOrder, cfg, resetDraws), lastHour := hour)
    ensures WorldValid(w) ==> WorldValid(r)
  {
    if hour == w.lastHour then w
    else
      var agents := if hour == 0 then ResetAll(w.agents, w.agentOrder, cfg, resetDraws) else w.agents;
      w.(agents := WakeAll(agents, w.agentOrder, hour, wakeReply), lastHour := hour)
  }

  /** The first pass always sees a new hour; at midnight it resets every
      persona's day. */
  lemma {:induction false} FirstPassResets(w: World, cfg: Config, resetDraws: seq<ScheduleDraw>, wakeReply: Option<string>)
    requires ValidConfig(cfg) && w.lastHour == -1
    ensures Transitions(w, cfg, 0, resetDraws, wakeReply).agents
            == ResetAll(w.agents, w.agentOrder, cfg, resetDraws)
  {
  }

  /** The personas active at `hour`, in dictionary order. */
  function ActiveAgents(agents: map<string, Agent>, order: seq<string>, hour: int): (r: seq<string>)
    ensures forall id :: id in r <==> id in order && id in agents && IsActive(agents[id], hour)
  {
    if |order| == 0 then []
    else
      var rest := ActiveAgents(agents, order[1..], hour);
      if order[0] in agents && IsActive(agents[order[0]], hour) then [order[0]] + rest else rest
  }

  /** The draws and replies one pass consumes. */
  datatype TaskInput = TaskInput(agentPick: nat, taskDraw: real, topicPick: nat, postPick: nat,
                                 reply: Option<string>, freshId: string, now: int)

  /** What the pass did. */
  datatype Task =
    | Idle
    | CreatePostTask(agentId: string, result: Option<string>)
    | CommentTask(agentId: string, postId: string, result: Option<string>)
    | LearnTask(agentId: string, result: Option<string>)
    | NothingToDo(agentId: string)

  /** A post listed by the community is stored under its own id. */
  lemma {:induction false} ListedPostStored(c: Community, limit: Option<int>, p: Post)
    requires Communities.Valid(c) && p in GetAllPosts(c, limit, None)
    ensures p.postId in c.posts && c.posts[p.postId] == p
  {
  }

  /** Replacing a persona by a consistent one with topics keeps the world
      consistent. */
  lemma {:induction false} PutAgent(w: World, id: string, b: Agent, c: Community, l: Ledger)
    requires WorldValid(w) && id in w.agents
    requires Agents.Valid(b) && |b.topics| > 0 && Communities.Valid(c) && Interactions.Valid(l)
    ensures WorldValid(w.(agents := w.agents[id := b], community := c, ledger := l))
  {
  }

  /** Persona `id` posted without a prompt: the task reports `create_post`'s
      result, and the world takes its persona and community. */
  predicate Posted(w: World, id: string, hour: int, t: TaskInput, r: (World, Task))
    requires WorldValid(w) && id in w.agents
  {
    var (b, c, res) := CreatePost(w.agents[id], w.community, hour, None, t.topicPick, t.reply, t.freshId, t.now);
    r.1 == CreatePostTask(id, res) && r.0 == w.(agents := w.agents[id := b], community := c)
  }

  /** Persona `id` commented without a prompt on the task's post: the task
      reports `comment_on_post`'s result, and the world takes its persona and
      community, whatever became of the ledger. */
  predicate Commented(w: World, id: string, hour: int, t: TaskInput, r: (World, Task))
    requires WorldValid(w) && id in w.agents
  {
    && r.1.CommentTask? && r.1.agentId == id
    && var (b, c, res) := CommentOnPost(w.agents[id], w.community, hour, r.1.postId, None,
                                        t.reply, t.freshId, t.now);
       r.1.result == res && r.0 == w.(agents := w.agents[id := b], community := c, ledger := r.0.ledger)
  }

  /** `_schedule_create_post`: the persona posts on a topic of its own. */
  function ScheduleCreatePost(w: World, id: string, hour: int, t: TaskInput): (r: (World, Task))
    requires WorldValid(w) && id in w.agents
    ensures r.1 == CreatePostTask(id, CreatePost(w.agents[id], w.community, hour, None,
                                                 t.topicPick, t.reply, t.freshId, t.now).2)
    ensures r.0 == w.(agents := w.agents[id := CreatePost(w.agents[id], w.community, hour, None,
                                                          t.topicPick, t.reply, t.freshId, t.now).0],
                      community := CreatePost(w.agents[id], w.community, hour, None,
                                              t.topicPick, t.reply, t.freshId, t.now).1)
    ensures Posted(w, id, hour, t, r)
    ensures r.0.ledger == w.ledger && r.0.agentOrder == w.agentOrder && r.0.lastHour == w.lastHour
    ensures r.0.agents.Keys == w.agents.Keys
    ensures WorldValid(r.0)
  {
    var (v, res) := PostWorld(w, id, hour, None, t.topicPick, t.reply, t.freshId, t.now);
    (v, CreatePostTask(id, res))
  }

  /** `_schedule_comment_post`: the persona comments on one of the ten newest
      posts, and a comment records an interaction with the post's author. */
  function ScheduleCommentPost(w: World, id: string, hour: int, t: TaskInput): (r: (World, Task))
    requires WorldValid(w) && id in w.agents
    ensures GetAllPosts(w.community, Some(10), None) == [] ==> r == (w, NothingToDo(id))
    ensures GetAllPosts(w.community, Some(10), None) != [] ==>
              && r.1.CommentTask?
              && r.1.result == CommentOnPost(w.agents[id], w.community, hour, r.1.postId, None,
                                             t.reply, t.freshId, t.now).2
              && r.0 == w.(agents := w.agents[id := CommentOnPost(w.agents[id], w.community, hour, r.1.postId,
                                                                  None, t.reply, t.freshId, t.now).0],
                           community := CommentOnPost(w.agents[id], w.community, hour, r.1.postId,
                                                      None, t.reply, t.freshId, t.now).1,
                           ledger := r.0.ledger)
    ensures r.1 != NothingToDo(id) ==> Commented(w, id, hour, t, r)
    ensures r.1 != NothingToDo(id) ==>
              && r.1.CommentTask? && r.1.agentId == id
              && exists p :: p in GetAllPosts(w.community, Some(10), None) && p.postId == r.1.postId
    ensures r.1.CommentTask? && Truthy(r.1.result) ==>
              && r.1.postId in w.community.posts
              && r.0.ledger == RecordInteraction(w.ledger, w.agents[id].agentId,
                                                 w.community.posts[r.1.postId].authorId, t.now)
    ensures !(r.1.CommentTask? && Truthy(r.1.result)) ==> r.0.ledger == w.ledger
    ensures r.0.agentOrder == w.agentOrder && r.0.lastHour == w.lastHour
    ensures r.0.agents.Keys == w.agents.Keys
    ensures WorldValid(r.0)
  {
    var recent := GetAllPosts(w.community, Some(10), None);
    if |recent| == 0 then (w, NothingToDo(id))
    else
      var post := recent[t.postPick % |recent|];
      assert post in recent;
      ListedPostStored(w.community, Some(10), post);
      CommentStep(w, id, hour, post, t)
  }

  /** The persona comments on a stored post; a comment records an
      interaction with the post's author. */
  function CommentStep(w: World, id: string, hour: int, post: Post, t: TaskInput): (r: (World, Task))
    requires WorldValid(w) && id in w.agents
    requires post.postId in w.community.posts && w.community.posts[post.postId] == post
    ensures r.1.CommentTask? && r.1.agentId == id && r.1.postId == post.postId
    ensures r.1.result == CommentOnPost(w.agents[id], w.community, hour, post.postId, None,
                                        t.reply, t.freshId, t.now).2
    ensures r.0 == w.(agents := w.agents[id := CommentOnPost(w.agents[id], w.community, hour, post.postId, None,
                                                             t.reply, t.freshId, t.now).0],
                      community := CommentOnPost(w.agents[id], w.community, hour, post.postId, None,
                                                 t.reply, t.freshId, t.now).1,
                      ledger := r.0.ledger)
    ensures Truthy(r.1.result) ==>
              r.0.ledger == RecordInteraction(w.ledger, w.agents[id].agentId, post.authorId, t.now)
    ensures !Truthy(r.1.result) ==> r.0.ledger == w.ledger
    ensures r.0.agentOrder == w.agentOrder && r.0.lastHour == w.lastHour
    ensures r.0.agents.Keys == w.agents.Keys
    ensures WorldValid(r.0)
  {
    var (v, res) := CommentWorld(w, id, hour, post.postId, None, t.reply, t.freshId, t.now);
    var ledger := if Truthy(res) then RecordInteraction(w.ledger, w.agents[id].agentId, post.authorId, t.now)
                  else w.ledger;
    WithLedger(v, ledger);
    (v.(ledger := ledger), CommentTask(id, post.postId, res))
  }

  /** The persona's comment, with the ledger left as it was. */
  function CommentWorld(w: World, id: string, hour: int, postId: string, prompt: Option<string>,
                        reply: Option<string>, freshId: string, now: int): (r: (World, Option<string>))
    requires WorldValid(w) && id in w.agents
    ensures r.1 == CommentOnPost(w.agents[id], w.community, hour, postId, prompt, reply, freshId, now).2
    ensures r.0 == w.(agents := w.agents[id := CommentOnPost(w.agents[id], w.community, hour, postId, prompt,
                                                             reply, freshId, now).0],
                      community := CommentOnPost(w.agents[id], w.community, hour, postId, prompt,
                                                 reply, freshId, now).1)
    ensures r.1.None? <==>
              (prompt.None? && !IsActive(w.agents[id], hour)) || postId !in w.community.posts || reply.None?
    ensures r.1.Some? ==> r.1.value == freshId && freshId in r.0.community.comments
    ensures r.0.ledger == w.ledger && r.0.agentOrder == w.agentOrder && r.0.lastHour == w.lastHour
    ensures r.0.agents.Keys == w.agents.Keys
    ensures WorldValid(r.0)
  {
    var (b, c, res) := CommentOnPost(w.agents[id], w.community, hour, postId, prompt, reply, freshId, now);
    PutAgent(w, id, b, c, w.ledger);
    (w.(agents := w.agents[id := b], community := c), res)
  }

  /** The persona's post, with the ledger left as it was. */
  function PostWorld(w: World, id: string, hour: int, prompt: Option<string>, topicPick: nat,
                     reply: Option<string>, freshId: string, now: int): (r: (World, Option<string>))
    requires WorldValid(w) && id in w.agents
    ensures r.1 == CreatePost(w.agents[id], w.community, hour, prompt, topicPick, reply, freshId, now).2
    ensures r.0 == w.(agents := w.agents[id := CreatePost(w.agents[id], w.community, hour, prompt, topicPick,
                                                          reply, freshId, now).0],
                      community := CreatePost(w.agents[id], w.community, hour, prompt, topicPick,
                                              reply, freshId, now).1)
    ensures r.1.None? <==> (prompt.None? && !IsActive(w.agents[id], hour)) || reply.None?
    ensures r.1.Some? ==> r.1.value == freshId && freshId in r.0.community.posts
    ensures r.0.ledger == w.ledger && r.0.agentOrder == w.agentOrder && r.0.lastHour == w.lastHour
    ensures r.0.agents.Keys == w.agents.Keys
    ensures WorldValid(r.0)
  {
    var (b, c, res) := CreatePost(w.agents[id], w.community, hour, prompt, topicPick, reply, freshId, now);
    PutAgent(w, id, b, c, w.ledger);
    (w.(agents := w.agents[id := b], community := c), res)
  }

  /** The persona's sleep-time learning, with the rest of the world left as
      it was. */
  function LearnWorld(w: World, id: string, hour: int, reply: Option<string>): (r: (World, Option<string>))
    requires WorldValid(w) && id in w.agents
    ensures r.1 == ProcessSleepLearning(w.agents[id], hour, reply).1
    ensures r.0 == w.(agents := w.agents[id := ProcessSleepLearning(w.agents[id], hour, reply).0])
    ensures r.0.ledger == w.ledger && r.0.agentOrder == w.agentOrder && r.0.lastHour == w.lastHour
    ensures r.0.agents.Keys == w.agents.Keys
    ensures WorldValid(r.0)
  {
    var (b, res) := ProcessSleepLearning(w.agents[id], hour, reply);
    PutAgent(w, id, b, w.community, w.ledger);
    (w.(agents := w.agents[id := b]), res)
  }

  /** A consistent ledger can replace the ledger of a consistent world. */
  lemma {:induction false} WithLedger(w: World, l: Ledger)
    requires WorldValid(w) && Interactions.Valid(l)
    ensures WorldValid(w.(ledger := l))
  {
  }

  /** `_schedule_active_agent_tasks`: pick an active persona; below 0.3, or
      with no post at all, it posts; below 0.7 it comments; otherwise it
      would learn if asleep, but a persona picked for being active is never
      asleep, so the last band changes nothing. */
  function ScheduleTasks(w: World, hour: int, t: TaskInput): (r: (World, Task))
    requires WorldValid(w)
    ensures r.1 == Idle <==> ActiveAgents(w.agents, w.agentOrder, hour) == []
    ensures r.1 == Idle ==> r.0 == w
    ensures r.1 != Idle ==> r.1.agentId in w.agents && IsActive(w.agents[r.1.agentId], hour)
    ensures r.1.CreatePostTask? <==>
              r.1 != Idle && (t.taskDraw < 0.3 || GetAllPosts(w.community, None, None) == [])
    ensures r.1.CreatePostTask? ==> Posted(w, r.1.agentId, hour, t, r)
    ensures r.1.CommentTask? ==> Commented(w, r.1.agentId, hour, t, r)
    ensures r.1.CommentTask? ==>
              exists p :: p in GetAllPosts(w.community, Some(10), None) && p.postId == r.1.postId
    ensures r.1.CommentTask? && Truthy(r.1.result) ==>
              && r.1.postId in w.community.posts
              && r.0.ledger == RecordInteraction(w.ledger, w.agents[r.1.agentId].agentId,
                                                 w.community.posts[r.1.postId].authorId, t.now)
    ensures !(r.1.CommentTask? && Truthy(r.1.result)) ==> r.0.ledger == w.ledger
    ensures r.1 != Idle && 0.3 <= t.taskDraw < 0.7 && GetAllPosts(w.community, None, None) != [] ==>
              && r.1.CommentTask?
              && r.1.result == CommentOnPost(w.agents[r.1.agentId], w.community, hour, r.1.postId, None,
                                             t.reply, t.freshId, t.now).2
    ensures r.1 != Idle && t.taskDraw >= 0.7 && GetAllPosts(w.community, None, None) != [] ==>
              r == (w, NothingToDo(r.1.agentId))
    ensures r.0.agentOrder == w.agentOrder && r.0.lastHour == w.lastHour
    ensures r.0.agents.Keys == w.agents.Keys
    ensures WorldValid(r.0)
  {
    var active := ActiveAgents(w.agents, w.agentOrder, hour);
    if |active| == 0 then (w, Idle)
    else
      var id := active[t.agentPick % |active|];
      assert id in active;
      NoPostsListed(w.community);
      Dispatch(w, id, hour, t)
  }

  /** The task bands for one active persona. */
  function Dispatch(w: World, id: string, hour: int, t: TaskInput): (r: (World, Task))
    requires WorldValid(w) && id in w.agents && IsActive(w.agents[id], hour)
    ensures r.1 != Idle && r.1.agentId == id
    ensures r.1.CreatePostTask? <==> t.taskDraw < 0.3 || |w.community.postOrder| == 0
    ensures r.1.CreatePostTask? ==> Posted(w, id, hour, t, r)
    ensures r.1.CommentTask? ==> Commented(w, id, hour, t, r)
    ensures r.1.CommentTask? ==>
              exists p :: p in GetAllPosts(w.community, Some(10), None) && p.postId == r.1.postId
    ensures r.1.CommentTask? && Truthy(r.1.result) ==>
              && r.1.postId in w.community.posts
              && r.0.ledger == RecordInteraction(w.ledger, w.agents[id].agentId,
                                                 w.community.posts[r.1.postId].authorId, t.now)
    ensures !(r.1.CommentTask? && Truthy(r.1.result)) ==> r.0.ledger == w.ledger
    ensures 0.3 <= t.taskDraw < 0.7 && |w.community.postOrder| != 0 ==>
              && r.1.CommentTask?
              && r.1.result == CommentOnPost(w.agents[id], w.community, hour, r.1.postId, None,
                                             t.reply, t.freshId, t.now).2
    ensures t.taskDraw >= 0.7 && |w.community.postOrder| != 0 ==> r == (w, NothingToDo(id))
    ensures r.0.agentOrder == w.agentOrder && r.0.lastHour == w.lastHour
    ensures r.0.agents.Keys == w.agents.Keys
    ensures WorldValid(r.0)
  {
    if t.taskDraw < 0.3 || |w.community.postOrder| == 0 then ScheduleCreatePost(w, id, hour, t)
    else if t.taskDraw < 0.7 then NoRecentPosts(w.community); ScheduleCommentPost(w, id, hour, t)
    else ActiveNotAsleep(w.agents[id], hour); SleepBand(w, id, hour, t.reply)
  }

  /** The last band, `_schedule_sleep_learning` for a sleeping persona:
      it learns, and any other persona does nothing. */
  function SleepBand(w: World, id: string, hour: int, reply: Option<string>): (r: (World, Task))
    requires WorldValid(w) && id in w.agents
    ensures IsAsleep(w.agents[id], hour) ==>
              && r.1 == LearnTask(id, ProcessSleepLearning(w.agents[id], hour, reply).1)
              && r.0 == w.(agents := w.agents[id := ProcessSleepLearning(w.agents[id], hour, reply).0])
    ensures !IsAsleep(w.agents[id], hour) ==> r == (w, NothingToDo(id))
    ensures r.0.ledger == w.ledger && r.0.agentOrder == w.agentOrder && r.0.lastHour == w.lastHour
    ensures r.0.agents.Keys == w.agents.Keys
    ensures WorldValid(r.0)
  {
    if IsAsleep(w.agents[id], hour) then
      var (v, res) := LearnWorld(w, id, hour, reply);
      (v, LearnTask(id, res))
    else (w, NothingToDo(id))
  }

  /** One pass of the loop. */
  function Tick(w: World, cfg: Config, hour: int, resetDraws: seq<ScheduleDraw>,
                wakeReply: Option<string>, t: TaskInput): (r: (World, Task))
    requires WorldValid(w) && ValidConfig(cfg)
    ensures r.0.lastHour == hour
    ensures hour == w.lastHour ==> r == ScheduleTasks(w, hour, t)
    ensures hour != w.lastHour && hour == 0 ==>
              r == ScheduleTasks(w.(agents := ResetAll(w.agents, w.agentOrder, cfg, resetDraws), lastHour := 0),
                                 0, t)
    ensures hour != w.lastHour && hour != 0 ==> r == ScheduleTasks(w.(lastHour := hour), hour, t)
    ensures WorldValid(r.0)
  {
    var w1 := Transitions(w, cfg, hour, resetDraws, wakeReply);
    ScheduleTasks(w1, hour, t)
  }

  /** `run_forced_task`'s task names. */
  datatype ForcedTask = CreatePostForced | CommentPostForced | SleepLearningForced | OtherTask(name: string)

  function ParseTask(name: string): ForcedTask
  {
    if name == "create_post" then CreatePostForced
    else if name == "comment_post" then CommentPostForced
    else if name == "sleep_learning" then SleepLearningForced
    else OtherTask(name)
  }

  /** `run_forced_task`: the named task for the named persona, with an
      optional prompt; no interaction is recorded for a forced comment. */
  function RunForcedTask(w: World, agentId: string, taskName: string, prompt: Option<string>,
                         postId: Option<string>, hour: int, topicPick: nat, reply: Option<string>,
                         freshId: string, now: int): (r: (World, Option<string>))
    requires WorldValid(w)
    ensures agentId !in w.agents ==> r == (w, None)
    ensures ParseTask(taskName).OtherTask? ==> r == (w, None)
    ensures ParseTask(taskName) == CommentPostForced && !Truthy(postId) ==> r == (w, None)
    ensures agentId in w.agents && ParseTask(taskName) == CreatePostForced ==>
              && r.1 == CreatePost(w.agents[agentId], w.community, hour, prompt, topicPick, reply, freshId, now).2
              && r.0 == w.(agents := w.agents[agentId := CreatePost(w.agents[agentId], w.community, hour, prompt,
                                                                    topicPick, reply, freshId, now).0],
                           community := CreatePost(w.agents[agentId], w.community, hour, prompt,
                                                   topicPick, reply, freshId, now).1)
    ensures agentId in w.agents && ParseTask(taskName) == CommentPostForced && Truthy(postId) ==>
              && r.1 == CommentOnPost(w.agents[agentId], w.community, hour, postId.value, prompt, reply,
                                      freshId, now).2
              && r.0 == w.(agents := w.agents[agentId := CommentOnPost(w.agents[agentId], w.community, hour,
                                                                       postId.value, prompt, reply, freshId, now).0],
                           community := CommentOnPost(w.agents[agentId], w.community, hour, postId.value,
                                                      prompt, reply, freshId, now).1)
    ensures agentId in w.agents && ParseTask(taskName) == SleepLearningForced ==>
              && r.1 == ProcessSleepLearning(w.agents[agentId], hour, reply).1
              && r.0 == w.(agents := w.agents[agentId := ProcessSleepLearning(w.agents[agentId], hour, reply).0])
    ensures agentId in w.agents && ParseTask(taskName) == CreatePostForced && prompt.Some? && reply.Some? ==>
              r.1 == Some(freshId) && freshId in r.0.community.posts
    ensures agentId in w.agents && ParseTask(taskName) == CommentPostForced && prompt.Some? && reply.Some?
              && Truthy(postId) && postId.value in w.community.posts ==>
              r.1 == Some(freshId) && freshId in r.0.community.comments
    ensures r.0.ledger == w.ledger && r.0.agentOrder == w.agentOrder && r.0.lastHour == w.lastHour
    ensures r.0.agents.Keys == w.agents.Keys
    ensures WorldValid(r.0)
  {
    if agentId !in w.agents then (w, None)
    else
      match ParseTask(taskName)
      case CreatePostForced => PostWorld(w, agentId, hour, prompt, topicPick, reply, freshId, now)
      case CommentPostForced =>
        if !Truthy(postId) then (w, None)
        else CommentWorld(w, agentId, hour, postId.value, prompt, reply, freshId, now)
      case SleepLearningForced => LearnWorld(w, agentId, hour, reply)
      case OtherTask(_) => (w, None)
  }
}

=== FILE: sorting.dfy ===
/**
  Python's `list.sort(key=..., reverse=...)` for integer keys: a stable sort.
  `SortDesc` is the `reverse=True` form and `SortAsc` the plain form; both
  keep elements with equal keys in their original order.
 */
module Sorting {

  ghost predicate Descending<T>(s: seq<T>, key: T -> int)
  {
    forall i, j :: 0 <= i < j < |s| ==> key(s[i]) >= key(s[j])
  }

  ghost predicate Ascending<T>(s: seq<T>, key: T -> int)
  {
    forall i, j :: 0 <= i < j < |s| ==> key(s[i]) <= key(s[j])
  }

  /** The elements of `s` whose key is `v`, in order. */
  function WithKey<T>(s: seq<T>, key: T -> int, v: int): seq<T>
  {
    if |s| == 0 then []
    else (if key(s[0]) == v then [s[0]] else []) + WithKey(s[1..], key, v)
  }

  /** Places `x` before the first element whose key is not larger, so `x`
      precedes every element of `s` with an equal key. */
  function Insert<T>(x: T, s: seq<T>, key: T -> int): (r: seq<T>)
    requires Descending(s, key)
    ensures Descending(r, key)
    ensures multiset(r) == multiset(s) + multiset{x}
    ensures |r| == |s| + 1
    ensures forall y :: y in r ==> y == x || y in s
  {
    if |s| == 0 then [x]
    else if key(s[0]) <= key(x) then
      AboveAll(x, s, key);
      [x] + s
    else
      DescendingTail(s, key);
      var t := Insert(x, s[1..], key);
      assert s == [s[0]] + s[1..];
      AboveAll(s[0], t, key);
      [s[0]] + t
  }

  lemma {:induction false} DescendingTail<T>(s: seq<T>, key: T -> int)
    requires |s| > 0 && Descending(s, key)
    ensures Descending(s[1..], key)
    ensures forall y :: y in s[1..] ==> key(y) <= key(s[0])
  {
    forall i, j | 0 <= i < j < |s| - 1
      ensures key(s[1..][i]) >= key(s[1..][j])
    {
      assert s[1..][i] == s[i + 1];
      assert s[1..][j] == s[j + 1];
    }
    forall y | y in s[1..]
      ensures key(y) <= key(s[0])
    {
      var k :| 0 <= k < |s| - 1 && s[1..][k] == y;
      assert s[k + 1] == y;
    }
  }

  /** Putting an element in front of a descending sequence of no larger keys
      keeps it descending. */
  lemma {:induction false} AboveAll<T>(a: T, t: seq<T>, key: T -> int)
    requires Descending(t, key)
    requires forall y :: y in t ==> key(y) <= key(a)
    ensures Descending([a] + t, key)
  {
    var r := [a] + t;
    forall i, j | 0 <= i < j < |r|
      ensures key(r[i]) >= key(r[j])
    {
      assert r[j] == t[j - 1];
      if i > 0 {
        assert r[i] == t[i - 1];
      } else {
        assert r[j] in t;
      }
    }
  }

  /** Stable sort, largest key first. */
  function SortDesc<T>(s: seq<T>, key: T -> int): (r: seq<T>)
    ensures Descending(r, key)
    ensures multiset(r) == multiset(s)
    ensures |r| == |s|
  {
    if |s| == 0 then []
    else
      assert s == [s[0]] + s[1..];
      Insert(s[0], SortDesc(s[1..], key), key)
  }

  /** Stable sort, smallest key first. */
  function SortAsc<T>(s: seq<T>, key: T -> int): (r: seq<T>)
    ensures Ascending(r, key)
    ensures multiset(r) == multiset(s)
    ensures |r| == |s|
  {
    SortDesc(s, Negated(key))
  }

  /** The key that orders the other way round. */
  function Negated<T>(key: T -> int): T -> int
  {
    x => -key(x)
  }

  lemma {:induction false} WithKeyCons<T>(a: T, t: seq<T>, key: T -> int, v: int)
    ensures WithKey([a] + t, key, v) == (if key(a) == v then [a] else []) + WithKey(t, key, v)
  {
    assert ([a] + t)[1..] == t;
  }

  lemma {:induction false} InsertWithKey<T>(x: T, s: seq<T>, key: T -> int, v: int)
    requires Descending(s, key)
    ensures WithKey(Insert(x, s, key), key, v) == (if key(x) == v then [x] else []) + WithKey(s, key, v)
    decreases |s|
  {
    if |s| == 0 || key(s[0]) <= key(x) {
      assert Insert(x, s, key) == [x] + s;
      WithKeyCons(x, s, key, v);
    } else {
      DescendingTail(s, key);
      InsertWithKey(x, s[1..], key, v);
      InsertPast(x, s, key);
      assert s == [s[0]] + s[1..];
      PastStep(s[0], x, Insert(x, s[1..], key), s[1..], key, v);
    }
  }

  /** An element with a smaller key goes past the head. */
  lemma {:induction false} InsertPast<T>(x: T, s: seq<T>, key: T -> int)
    requires |s| > 0 && key(s[0]) > key(x)
    requires Descending(s, key) && Descending(s[1..], key)
    ensures Insert(x, s, key) == [s[0]] + Insert(x, s[1..], key)
  {
  }

  /** The step of `InsertWithKey` where `x` goes past a head `a` with a
      larger key: `a` and `x` cannot both carry the key `v`. */
  lemma {:induction false} PastStep<T>(a: T, x: T, t: seq<T>, rest: seq<T>, key: T -> int, v: int)
    requires key(a) > key(x)
    requires WithKey(t, key, v) == (if key(x) == v then [x] else []) + WithKey(rest, key, v)
    ensures WithKey([a] + t, key, v) == (if key(x) == v then [x] else []) + WithKey([a] + rest, key, v)
  {
    WithKeyCons(a, t, key, v);
    WithKeyCons(a, rest, key, v);
    if key(x) == v {
      assert key(a) != v;
    }
  }

  /** Stability: for every key value, the elements carrying it keep their
      relative order. */
  lemma {:induction false} SortDescStable<T>(s: seq<T>, key: T -> int, v: int)
    ensures WithKey(SortDesc(s, key), key, v) == WithKey(s, key, v)
    decreases |s|
  {
    if |s| > 0 {
      SortDescStable(s[1..], key, v);
      InsertWithKey(s[0], SortDesc(s[1..], key), key, v);
    }
  }

  /** A key and its negation pick out the same elements, for `v` and `-v`. */
  lemma {:induction false} WithKeyOpposite<T>(s: seq<T>, key: T -> int, opp: T -> int, v: int)
    requires forall x :: opp(x) == -key(x)
    ensures WithKey(s, opp, -v) == WithKey(s, key, v)
    decreases |s|
  {
    if |s| > 0 {
      WithKeyOpposite(s[1..], key, opp, v);
    }
  }

  /** Sorting descending by the negated key keeps each key's elements in
      order. */
  lemma {:induction false} SortDescOppositeStable<T>(s: seq<T>, key: T -> int, opp: T -> int, v: int)
    requires forall x :: opp(x) == -key(x)
    ensures WithKey(SortDesc(s, opp), key, v) == WithKey(s, key, v)
  {
    SortDescStable(s, opp, -v);
    OppositeChain(SortDesc(s, opp), s, key, opp, v);
  }

  /** Two sequences with the same elements of negated key `-v` have the
      same elements of key `v`. */
  lemma {:induction false} OppositeChain<T>(d: seq<T>, s: seq<T>, key: T -> int, opp: T -> int, v: int)
    requires forall x :: opp(x) == -key(x)
    requires WithKey(d, opp, -v) == WithKey(s, opp, -v)
    ensures WithKey(d, key, v) == WithKey(s, key, v)
  {
    WithKeyOpposite(d, key, opp, v);
    WithKeyOpposite(s, key, opp, v);
  }

  lemma {:induction false} SortAscStable<T>(s: seq<T>, key: T -> int, v: int)
    ensures WithKey(SortAsc(s, key), key, v) == WithKey(s, key, v)
  {
    var opp := Negated(key);
    assert SortAsc(s, key) == SortDesc(s, opp);
    assert forall x :: opp(x) == -key(x);
    SortDescOppositeStable(s, key, opp, v);
  }

  /** The first `n` elements of a descending arrangement of `s` are
      elements of `s`, and nothing of `s` left out has a larger key. */
  lemma {:induction false} TopOfSorted<T>(s: seq<T>, sorted: seq<T>, key: T -> int, n: nat)
    requires Descending(sorted, key) && multiset(sorted) == multiset(s) && n <= |sorted|
    ensures forall p :: p in sorted[..n] ==> p in s
    ensures forall p, q :: p in sorted[..n] && q in s && q !in sorted[..n] ==> key(q) <= key(p)
    ensures multiset(sorted[..n]) <= multiset(s)
  {
    var top := sorted[..n];
    assert sorted == top + sorted[n..];
    forall p | p in top
      ensures p in s
    {
      assert p in multiset(sorted);
    }
    forall p, q | p in top && q in s && q !in top
      ensures key(q) <= key(p)
    {
      assert q in multiset(sorted);
      var i :| 0 <= i < |top| && top[i] == p;
      var k :| 0 <= k < |sorted| && sorted[k] == q;
      assert sorted[i] == p;
      assert k >= n;
    }
  }
}

=== FILE: strings.dfy ===
/**
  The pieces of Python's `str` and list semantics the simulation relies on:
  slicing with negative bounds, `in` on strings, `split`, `strip`, `lower`
  and `startswith`. Strings are sequences of Unicode scalar values, as in
  Python 3.
 */
module Strings {
  import opened Wrappers

  // ---------------------------------------------------------------------
  // Slices

  /** Python's normalisation of a slice bound `i` against a length `n`. */
  function SliceIndex(i: int, n: nat): (k: nat)
    ensures k <= n
    ensures 0 <= i <= n ==> k == i
    ensures i > n ==> k == n
    ensures i < 0 && -i <= n ==> k == n + i
    ensures i < 0 && -i > n ==> k == 0
  {
    if i < 0 then (if n + i < 0 then 0 else n + i)
    else if i > n then n else i
  }

  /** `s[:i]` */
  function Take<T>(s: seq<T>, i: int): seq<T>
  {
    s[..SliceIndex(i, |s|)]
  }

  /** `s[i:]` */
  function Drop<T>(s: seq<T>, i: int): seq<T>
  {
    s[SliceIndex(i, |s|)..]
  }

  /** `s[-k:]`, the idiom the source uses for "the last k items". */
  function Last<T>(s: seq<T>, k: int): (r: seq<T>)
    ensures k >= 1 && k <= |s| ==> r == s[|s| - k..]
    ensures k >= |s| ==> r == s
    ensures k == 0 ==> r == s
    ensures |r| <= |s| && r == s[|s| - |r|..]
  {
    Drop(s, -k)
  }

  lemma {:induction false} LastIsBounded<T>(s: seq<T>, k: int)
    requires k >= 1
    ensures |Last(s, k)| == if k < |s| then k else |s|
  {
  }

  // ---------------------------------------------------------------------
  // Substring search

  predicate IsPrefix<T(==)>(p: seq<T>, s: seq<T>)
  {
    |p| <= |s| && s[..|p|] == p
  }

  predicate IsSuffix<T(==)>(p: seq<T>, s: seq<T>)
  {
    |p| <= |s| && s[|s| - |p|..] == p
  }

  /** `sub` occurs in `s` starting at position `i`. */
  predicate OccursAt(s: string, sub: string, i: nat)
  {
    i + |sub| <= |s| && s[i..i + |sub|] == sub
  }

  /** `s.find(sub)`, with "not found" as `None`. */
  function Find(s: string, sub: string): (r: Option<nat>)
    ensures r.Some? ==> OccursAt(s, sub, r.value)
    ensures r.Some? ==> forall j :: 0 <= j < r.value ==> !OccursAt(s, sub, j)
    ensures r.None? ==> forall j :: 0 <= j <= |s| ==> !OccursAt(s, sub, j)
    decreases |s|
  {
    if IsPrefix(sub, s) then Some(0)
    else if |s| == 0 then None
    else
      OccursShift(s, sub);
      match Find(s[1..], sub)
      case None => None
      case Some(k) => Some(k + 1)
  }

  lemma {:induction false} OccursShift(s: string, sub: string)
    requires |s| > 0
    ensures forall j :: 1 <= j <= |s| ==> (OccursAt(s, sub, j) <==> OccursAt(s[1..], sub, j - 1))
  {
    forall j | 1 <= j <= |s|
      ensures OccursAt(s, sub, j) <==> OccursAt(s[1..], sub, j - 1)
    {
      if j + |sub| <= |s| {
        assert s[1..][j - 1..j - 1 + |sub|] == s[j..j + |sub|];
      }
    }
  }

  /** `sub in s` */
  predicate Contains(s: string, sub: string)
  {
    Find(s, sub).Some?
  }

  lemma {:induction false} ContainsIff(s: string, sub: string)
    ensures Contains(s, sub) <==> exists j :: 0 <= j <= |s| && OccursAt(s, sub, j)
  {
  }

  /** A text without the first character of `sub` does not contain it. */
  lemma {:induction false} MissingFirstChar(s: string, sub: string)
    requires |sub| > 0
    requires forall i :: 0 <= i < |s| ==> s[i] != sub[0]
    ensures !Contains(s, sub)
  {
    forall j | 0 <= j <= |s|
      ensures !OccursAt(s, sub, j)
    {
      if j + |sub| <= |s| {
        assert s[j..j + |sub|][0] == s[j];
      }
    }
  }

  /** `s.startswith(p)` */
  predicate StartsWith(s: string, p: string)
  {
    IsPrefix(p, s)
  }

  /** `s.split(sep)` for a non-empty separator. */
  function Split(s: string, sep: string): (parts: seq<string>)
    requires |sep| > 0
    ensures |parts| >= 1
    ensures Find(s, sep).None? ==> parts == [s]
    ensures Find(s, sep).Some? ==> |parts| >= 2 && parts[0] == s[..Find(s, sep).value]
    ensures forall i :: 0 <= i < |parts| ==> !Contains(parts[i], sep)
    decreases |s|
  {
    match Find(s, sep)
    case None => [s]
    case Some(i) =>
      FindPrefixNone(s, sep, i);
      [s[..i]] + Split(s[i + |sep|..], sep)
  }

  /** The text before the first `sep` has no `sep` in it. */
  lemma {:induction false} FindPrefixNone(s: string, sep: string, i: nat)
    requires |sep| > 0 && Find(s, sep) == Some(i)
    ensures Find(s[..i], sep).None?
  {
    var p := s[..i];
    forall j | 0 <= j <= |p|
      ensures !OccursAt(p, sep, j)
    {
      if j + |sep| <= |p| {
        assert j < i;
        assert !OccursAt(s, sep, j);
        assert p[j..j + |sep|] == s[..i][j..j + |sep|] == s[j..j + |sep|];
      }
    }
  }

  /** `s.split(sep)[1]`, the text between the first and second occurrence;
      defined only when `sep` occurs. */
  function After(s: string, sep: string): (r: string)
    requires |sep| > 0 && Contains(s, sep)
    ensures !Contains(r, sep)
    ensures |r| <= |s|
  {
    var k := Find(s, sep).value;
    Split(s[k + |sep|..], sep)[0]
  }

  /** `Find` reports the first occurrence. */
  lemma {:induction false} FindFirst(s: string, sub: string, k: nat)
    requires OccursAt(s, sub, k)
    requires forall j :: 0 <= j < k ==> !OccursAt(s, sub, j)
    ensures Find(s, sub) == Some(k)
    decreases k
  {
    if k > 0 {
      assert !OccursAt(s, sub, 0);
      OccursShift(s, sub);
      forall j | 0 <= j < k - 1
        ensures !OccursAt(s[1..], sub, j)
      {
        assert !OccursAt(s, sub, j + 1);
      }
      FindFirst(s[1..], sub, k - 1);
    }
  }

  /** When the first occurrence of `sep` is at `k` and none follows, the
      text after it is all the rest. */
  lemma {:induction false} AfterAt(s: string, sep: string, k: nat)
    requires |sep| > 0 && Find(s, sep) == Some(k)
    requires !Contains(s[k + |sep|..], sep)
    ensures Contains(s, sep) && After(s, sep) == s[k + |sep|..]
  {
    var rest := s[k + |sep|..];
    assert Split(rest, sep) == [rest];
  }

  /** The first `sep` in `pre + sep + tail` is the one placed there, when
      `pre` holds none and no later character of `sep` equals its first. */
  lemma {:induction false} FindPlaced(pre: string, sep: string, tail: string)
    requires |sep| > 0 && !Contains(pre, sep)
    requires forall d :: 1 <= d < |sep| ==> sep[d] != sep[0]
    ensures Find(pre + sep + tail, sep) == Some(|pre|)
  {
    var s := pre + sep + tail;
    assert s[|pre|..|pre| + |sep|] == sep;
    ContainsIff(pre, sep);
    forall j | 0 <= j < |pre|
      ensures !OccursAt(s, sep, j)
    {
      if j + |sep| <= |pre| {
        assert pre[j..j + |sep|] == s[j..j + |sep|];
        assert !OccursAt(pre, sep, j);
      } else if j + |sep| <= |s| {
        assert s[j..j + |sep|][|pre| - j] == s[|pre|] == sep[0];
      }
    }
    FindFirst(s, sep, |pre|);
  }

  /** Splitting on a separator that cannot meet a line or its newline keeps
      that line and its newline at the head of the first part. */
  lemma {:induction false} SplitKeepsLine(line: string, rest: string, sep: string)
    requires |sep| > 0 && !Contains(line, sep) && '\n' !in sep
    ensures IsPrefix(line + "\n", Split(line + "\n" + rest, sep)[0])
  {
    var tail := line + "\n" + rest;
    ContainsIff(line, sep);
    forall j | 0 <= j <= |line|
      ensures !OccursAt(tail, sep, j)
    {
      if j + |sep| <= |line| {
        assert line[j..j + |sep|] == tail[j..j + |sep|];
        assert !OccursAt(line, sep, j);
      } else if j + |sep| <= |tail| {
        assert tail[j..j + |sep|][|line| - j] == tail[|line|] == '\n';
      }
    }
    match Find(tail, sep) {
      case None =>
        assert tail[..|line| + 1] == line + "\n";
      case Some(f) =>
        assert tail[..f][..|line| + 1] == line + "\n";
    }
  }

  /** The first line of a text that starts with `line` and a newline. */
  lemma {:induction false} FirstLine(s: string, line: string)
    requires IsPrefix(line + "\n", s) && '\n' !in line
    ensures Split(s, "\n")[0] == line
  {
    assert s[..|line|] == line && s[|line|] == '\n';
    NoEarlierStart(s, "\n", |line|);
    assert s[|line|..|line| + 1] == "\n";
    FindFirst(s, "\n", |line|);
  }

  /** A one-character text occurs exactly where that character stands. */
  lemma {:induction false} ContainsChar(s: string, c: char)
    ensures Contains(s, [c]) <==> c in s
  {
    ContainsIff(s, [c]);
    if c in s {
      var i :| 0 <= i < |s| && s[i] == c;
      assert s[i..i + 1] == [c];
      assert OccursAt(s, [c], i);
    }
    if Contains(s, [c]) {
      var j :| 0 <= j <= |s| && OccursAt(s, [c], j);
      assert s[j..j + 1][0] == s[j];
    }
  }

  /** Lower-casing keeps every character other than the letters A to Z and
      a to z where it was. */
  lemma {:induction false} LowerKeepsChar(s: string, c: char)
    requires !('A' <= c <= 'Z') && !('a' <= c <= 'z')
    ensures Contains(Lower(s), [c]) <==> Contains(s, [c])
  {
    ContainsChar(s, c);
    ContainsChar(Lower(s), c);
    var l := Lower(s);
    if c in l {
      var i :| 0 <= i < |l| && l[i] == c;
      assert LowerChar(s[i]) == c;
    }
    if c in s {
      var i :| 0 <= i < |s| && s[i] == c;
      assert l[i] == c;
    }
  }

  /** No occurrence starts where the first character of `sub` is absent. */
  lemma {:induction false} NoEarlierStart(s: string, sub: string, k: nat)
    requires |sub| > 0
    requires forall i :: 0 <= i < k && i < |s| ==> s[i] != sub[0]
    ensures forall j :: 0 <= j < k ==> !OccursAt(s, sub, j)
  {
    forall j | 0 <= j < k
      ensures !OccursAt(s, sub, j)
    {
      if j + |sub| <= |s| {
        assert s[j..j + |sub|][0] == s[j];
      }
    }
  }

  // ---------------------------------------------------------------------
  // Whitespace and case

  /** The characters for which Python's `str.isspace()` holds. */
  predicate IsSpace(c: char)
  {
    || ('\U{0009}' <= c <= '\U{000D}') || ('\U{001C}' <= c <= '\U{0020}')
    || c == '\U{0085}' || c == '\U{00A0}' || c == '\U{1680}'
    || ('\U{2000}' <= c <= '\U{200A}') || c == '\U{2028}' || c == '\U{2029}'
    || c == '\U{202F}' || c == '\U{205F}' || c == '\U{3000}'
  }

  /** Leading whitespace removed. */
  function StripLeft(s: string): (r: string)
    ensures |r| <= |s| && r == s[|s| - |r|..]
    ensures |r| > 0 ==> !IsSpace(r[0])
    ensures forall i :: 0 <= i < |s| - |r| ==> IsSpace(s[i])
  {
    if |s| > 0 && IsSpace(s[0]) then StripLeft(s[1..]) else s
  }

  /** Trailing whitespace removed. */
  function StripRight(s: string): (r: string)
    ensures |r| <= |s| && r == s[..|r|]
    ensures |r| > 0 ==> !IsSpace(r[|r| - 1])
    ensures forall i :: |r| <= i < |s| ==> IsSpace(s[i])
  {
    if |s| > 0 && IsSpace(s[|s| - 1]) then StripRight(s[..|s| - 1]) else s
  }

  /** `s.strip()` */
  function Strip(s: string): (r: string)
    ensures |r| <= |s|
    ensures |r| > 0 ==> !IsSpace(r[0]) && !IsSpace(r[|r| - 1])
    ensures r == [] <==> forall i :: 0 <= i < |s| ==> IsSpace(s[i])
  {
    var l := StripLeft(s);
    var r := StripRight(l);
    r
  }

  function LowerChar(c: char): (d: char)
    ensures 'A' <= c <= 'Z' ==> 'a' <= d <= 'z'
    ensures !('A' <= c <= 'Z') ==> d == c
  {
    if 'A' <= c <= 'Z' then (c as int + 32) as char else c
  }

  /** `s.lower()`, for the letters A to Z. */
  function Lower(s: string): (r: string)
    ensures |r| == |s|
    ensures forall i :: 0 <= i < |s| ==> r[i] == LowerChar(s[i])
  {
    seq(|s|, i requires 0 <= i < |s| => LowerChar(s[i]))
  }

  // ---------------------------------------------------------------------
  // Numbers

  function DigitChar(d: nat): (c: char)
    requires d < 10
    ensures '0' <= c <= '9'
  {
    ('0' as int + d) as char
  }

  /** `str(n)` for a natural number: its decimal digits, no leading zero. */
  function Decimal(n: nat): (s: string)
    ensures |s| >= 1
    ensures forall i :: 0 <= i < |s| ==> '0' <= s[i] <= '9'
    ensures (|s| == 1) <==> n < 10
  {
    if n < 10 then [DigitChar(n)] else Decimal(n / 10) + [DigitChar(n % 10)]
  }

  /** Different numbers print differently. */
  lemma {:induction false} DecimalInjective(n: nat, m: nat)
    requires Decimal(n) == Decimal(m)
    ensures n == m
    decreases n
  {
    var s := Decimal(n);
    if n >= 10 {
      assert m >= 10;
      assert s[..|s| - 1] == Decimal(n / 10) == Decimal(m / 10);
      assert DigitChar(n % 10) == s[|s| - 1] == DigitChar(m % 10);
      DecimalInjective(n / 10, m / 10);
    }
  }
}

=== FILE: utils.dfy ===
/** The two text helpers of the utilities file: truncation with an ellipsis
    and a rough token count. */
module Utils {
  import opened Strings
  import opened Numbers

  const Ellipsis: string := "..."

  /** `summarize_text`: the text itself when it fits, otherwise its first
      `maxLength` characters (a Python slice, so a negative bound counts from
      the end) followed by "...". */
  function SummarizeText(text: string, maxLength: int): (r: string)
    ensures |text| <= maxLength ==> r == text
    ensures |text| > maxLength && maxLength >= 0 ==>
              |r| == maxLength + 3 && r[..maxLength] == text[..maxLength] && r[maxLength..] == Ellipsis
    ensures |text| > maxLength && maxLength < 0 ==>
              var k := Max(0, |text| + maxLength);
              |r| == k + 3 && r[..k] == text[..k] && r[k..] == Ellipsis
  {
    if |text| <= maxLength then text else Take(text, maxLength) + Ellipsis
  }

  /** For a non-negative bound, summarising twice is summarising once. */
  lemma {:induction false} SummarizeIdempotent(text: string, maxLength: int)
    requires maxLength >= 0
    ensures SummarizeText(SummarizeText(text, maxLength), maxLength) == SummarizeText(text, maxLength)
  {
    if |text| > maxLength {
      var r := SummarizeText(text, maxLength);
      assert Take(r, maxLength) == text[..maxLength];
    }
  }

  /** A negative bound breaks idempotence: the second pass drops one more
      character from the front part and adds a second ellipsis. */
  lemma {:induction false} SummarizeNegativeNotIdempotent()
    ensures SummarizeText(SummarizeText("abcdef", -1), -1) != SummarizeText("abcdef", -1)
  {
    assert SummarizeText("abcdef", -1) == "abcde...";
    assert |SummarizeText("abcde...", -1)| == 10;
  }

  /** The CJK Unified Ideographs block the estimate counts separately. */
  predicate IsCjk(c: char)
  {
    '\U{4E00}' <= c <= '\U{9FFF}'
  }

  function CjkCount(text: string): (n: nat)
    ensures n <= |text|
  {
    if |text| == 0 then 0 else (if IsCjk(text[0]) then 1 else 0) + CjkCount(text[1..])
  }

  /** `count_tokens_estimate`: 1.5 tokens per CJK character and a quarter
      token per other character, truncated; in integers, (6c + o) div 4. */
  function CountTokensEstimate(text: string): (n: nat)
    ensures 4 * n <= 6 * CjkCount(text) + (|text| - CjkCount(text)) < 4 * n + 4
  {
    var c := CjkCount(text);
    (6 * c + (|text| - c)) / 4
  }

  /** The estimate is at most one and a half tokens per character, and at
      least a quarter token per character. */
  lemma {:induction false} TokensBounded(text: string)
    ensures |text| / 4 <= CountTokensEstimate(text) <= 6 * |text| / 4
  {
  }

  /** The estimate grows when text is appended. */
  lemma {:induction false} CjkCountAppend(a: string, b: string)
    ensures CjkCount(a + b) == CjkCount(a) + CjkCount(b)
    decreases |a|
  {
    if |a| > 0 {
      assert (a + b)[1..] == a[1..] + b;
      CjkCountAppend(a[1..], b);
    } else {
      assert a + b == b;
    }
  }

  lemma {:induction false} TokensMonotone(a: string, b: string)
    ensures CountTokensEstimate(a) <= CountTokensEstimate(a + b)
  {
    CjkCountAppend(a, b);
  }
}

=== FILE: wrappers.dfy ===
/** Python's `None`-or-value results, as an explicit datatype. */
module Wrappers {

  datatype Option<+T> = None | Some(value: T) {

    /** The carried value, or `default` when there is none. */
    function GetOr(default: T): T {
      match this
      case Some(v) => v
      case None => default
    }
  }
}
